=== FILE: README.md ===
# FooBar heartboard, in Dafny

A model of the core of the FooBar Discord bot. It covers the **heartboard** and the configuration commands around it.

The heartboard mirrors a message into an output channel once the message has gathered enough of the configured reactions. Per source message it keeps a registry entry `(channelID, messageID, embedMessageID)`:

- a mirror is created when the message first reaches the threshold;
- the mirror is edited while the message stays at or above the threshold;
- the mirror and its entry are deleted when the message falls below the threshold.

The model also covers:

- the server-keyed list operations over the two stored documents (config and data);
- the `/heartboard` and `/voiceping` slash commands: option merge, emoji parsing, autocomplete, settings embed, test fallbacks and greeting template;
- the older single-document `/voiceping` command.

Everything is an immutable datatype and a pure function. Discord is abstracted:

- The reaction handler is a transition `Step(config, registry, event, surface) -> (registry', effect)`.
  - `surface` answers the questions the handler asks Discord. Does fetching the configured output channel fail, find nothing, or find a channel, and is that channel sendable? Can the registered mirror still be fetched? Does the write the step needs succeed (the edit, the delete, or the member fetch and the send)? Which id does a newly sent mirror receive?
  - The effect is one of: none, remove the author's reaction, send, edit, or delete a mirror.
- `HandleReaction` lifts `Step` to the two documents: lookup-or-create of the server's config and data, then the write-back.

| file | module | contents |
|---|---|---|
| wrappers.dfy | `Wrappers` | `Option` |
| lists.dfy | `Lists` | `findIndex` by key, replace-or-append, find-or-append, `splice(i, 1)`, filtering by key |
| text.dfy | `Text` | JavaScript `trim`, `split` on one character, `join`, `indexOf`/`includes`, first-occurrence `replace` with `$` patterns, number to decimal text |
| types.dfy | `Types` | the stored records and the two default configurations |
| data.dfy | `Data` | `addData`, `addConfig`, `getServerData`, `getServerConfig`, `editServerData`, `editServerConfig`, `repairServerData`, `repairServerConfig` |
| tally.dfy | `ReactionTally` | the cumulative and single-emoji tallies, as functions and as the single-pass loops |
| heartboard.dfy | `Heartboard` | the ignore filter, the author guard, the four-way decision, mirror text and embeds, the document-level handler, replay convergence |
| commands.dfy | `Commands` | `/heartboard` and `/voiceping` |
| legacy.dfy | `LegacyCommands` | the older `/voiceping` over a single config document |

Where the type declarations and the code that builds records differ, the model follows the code. `ServerConfig` and `ServerData` in dev/types.ts omit `serverResponses` and the chatbot fields, which dev/data.ts writes.

## Model

| member | source | states |
|---|---|---|
| Lists.FindKey | dev/data.ts:139 | The index found is the first whose key matches. It is -1 exactly when no element has the key. |
| Lists.Upsert | dev/data.ts:137-148 | Without a match the record is appended. Otherwise the record takes the first match's index. Every other element keeps its value and index, and looking the key up afterwards yields the record. |
| Lists.UpsertIdempotent | dev/data.ts:137-148 | Replace-or-append twice with the same record equals doing it once. |
| Lists.WithoutUpsert | dev/data.ts:137-148 | Upserting a record leaves the elements with other keys unchanged and in the same order. |
| Lists.WithoutRemoveAt | dev/events.ts:237 | Splicing out one element with a given key leaves the elements with other keys unchanged and in order. |
| Lists.RemoveAtUnique | dev/events.ts:237 | If keys were unique, the spliced key no longer occurs after the splice. |
| Data.AddData | dev/data.ts:79-98 | A known server: its record is returned and the document is unchanged. An unknown server: a record with an empty registry and empty chatbot fields is appended and returned. |
| Data.AddDataIdempotent | dev/data.ts:79-98 | A second `addData` for the same server changes nothing more. |
| Data.AddConfig | dev/data.ts:100-119 | The same find-or-append. A new record gets AI off, no responses and the default heartboard and voice-ping settings. |
| Data.GetServerData | dev/data.ts:122-128 | Always yields the server's record, adding one exactly as `addData` does. |
| Data.GetServerConfig | dev/data.ts:130-134 | Yields the first configuration with the id, or none exactly when no record has it. It never adds. |
| Data.EditServerData | dev/data.ts:137-148 | After the edit the lookup yields the record. The document grows by one only for an unknown id. Every other server's record keeps its value and place, and the shared core memory is kept. |
| Data.EditServerConfig | dev/data.ts:150-161 | The same replace-or-append over the config document. |
| Data.EditServerDataIdempotent | dev/data.ts:137-148 | Editing twice with the same record equals editing once. |
| Data.EditServerConfigIdempotent | dev/data.ts:150-161 | Editing twice with the same record equals editing once. |
| Data.RepairServerData | dev/data.ts:164-178 | A record with a missing or empty id is returned untouched, and the document is not changed. Otherwise, for each chatbot field, a present value is kept and a missing one gets its default. The registry is read from the key `heartboardMessage`, and the repaired record becomes the one found for its id. Other servers' records and the shared core memory are untouched. |
| Data.RepairServerDataDropsRegistry | dev/data.ts:170 | Repairing a well-formed record with registry entries empties its registry, both in the result and in the document. |
| Data.RepairServerDataIntended | dev/data.ts:164-178 | The same repair, with the registry read from `heartBoardMessages`: a present registry is kept and a missing one becomes empty. Chatbot fields are repaired as before, and other servers' records and the shared core memory are untouched. |
| Data.RepairServerDataIntendedKeepsRecord | dev/data.ts:164-178 | The corrected repair returns a well-formed record unchanged. Repairing again leaves the document as it is. |
| Data.RepairedConfig | dev/data.ts:180-188 | Each top-level field that is present is kept. Each missing one gets its documented default (AI off, no responses, default heartboard, default voice ping). |
| Data.RepairServerConfig | dev/data.ts:180-192 | The repaired configuration is written back and is what the lookup yields afterwards. Other servers are untouched. |
| Data.RepairConfigKeepsWellFormed | dev/data.ts:180-188 | Repairing a complete configuration returns it unchanged. |
| Data.RepairServerConfigIdempotent | dev/data.ts:180-192 | Repairing twice equals repairing once, both for the record and for the document. |
| Types.DefaultHeartboard | dev/types.ts:94-101 | The default heartboard is off and single-emoji, lets authors react, needs 3 and has no channel. It lists only U+2764 U+FE0F, so a bare U+2764 heart is not a configured emoji. |
| Types.DefaultVoiceping | dev/types.ts:102-107 | The default voice ping is off, with the template "Welcome to the voice channel, {user}", no inputs and no output. |
| Text.Trim | dev/commands.ts:69 | The result is a slice of the input: everything before the slice and everything after it is ECMAScript whitespace, and the slice has no whitespace at either end. It equals the input when that is already trimmed. |
| Text.Split | dev/commands.ts:69 | Splitting yields at least one part (`[""]` for the empty string), and no part contains the separator. |
| Text.JoinSplit | dev/commands.ts:69 | Joining the parts with the separator gives back the input. |
| Text.SplitJoin | dev/commands.ts:99 | Splitting a join gives back the list when it is non-empty and no element contains the separator. |
| Text.SplitLength | dev/commands.ts:184 | There is one more part than there are separators. |
| Text.AdjacentSeparatorsGiveEmptyPart | dev/commands.ts:184 | Two separators in a row produce an empty part. |
| Text.IndexOf | dev/commands.ts:150 | Returns the first position where the pattern occurs, or -1 exactly when it occurs nowhere. |
| Text.ReplaceFirst | dev/commands.ts:169 | Without an occurrence of the pattern the text is unchanged. A replacement text without `$` takes the place of the pattern's first occurrence character for character (`SpliceFirst`). |
| Text.OccurrenceSurvives | dev/events.ts:163 | Replacing a pattern's first occurrence with text free of `$` keeps every other non-overlapping occurrence of any pattern. An occurrence after the replaced text is shifted by the length difference. |
| Text.NatToStringRoundTrip | dev/events.ts:218 | The decimal text of a count parses back to the count. |
| Text.IntToString | dev/commands.ts:29 | The decimal text of an integer has digits that parse back to it, with a leading `-` when it is negative. The digits start with `0` only when they are the single `0` for zero. |
| ReactionTally.Tally | dev/events.ts:197-215 | Only configured emojis are reported. In cumulative mode, one emoji is reported per relevant reaction. In single mode, at most one emoji is reported, and the total is 0 when none is reported and otherwise reaches the threshold. |
| ReactionTally.TallyIgnoresOtherEmojis | dev/events.ts:199 | Reactions with emojis outside the list never change the tally. |
| ReactionTally.CumulativeSingle | dev/events.ts:201-205 | In cumulative mode a single reaction contributes its count and its emoji when it is configured, and nothing otherwise. |
| ReactionTally.CumulativeConcat | dev/events.ts:201-205 | The cumulative tally is additive: totals add and emoji lists concatenate in input order. With CumulativeSingle this fixes it as the sum of relevant counts, with those emojis in order. |
| ReactionTally.SingleModeWinner | dev/events.ts:206-215 | In single mode no emoji is reported iff no reaction reaches the threshold. Otherwise the total bounds every qualifying count and is the count of a qualifying reaction. The emoji reported is that of the first qualifying reaction with that count. |
| ReactionTally.TallyReactions | dev/events.ts:197-215 | The tally as a loop computes exactly `Tally`. Cumulative mode is the `forEach` accumulation. Single mode in the handler is a filter, `Math.max` and `find`; the loop's running maximum, which keeps the first of equal counts, computes the same result. |
| ReactionTally.SumReactions | dev/events.ts:201-205 | The accumulating loop over the cache yields the cumulative tally. |
| ReactionTally.LargestReaction | dev/events.ts:206-215 | The running maximum, taking the first of equal counts, yields the single-mode tally. |
| Heartboard.MirrorContent | dev/events.ts:218 | The mirror text is the joined emojis, ` // **`, decimal digits that parse back to the total and start with `0` only as the single `0` for zero, `**` and a newline, then the link. |
| Heartboard.ImageAttachments | dev/events.ts:253 | An attachment is kept iff it is in the input and its content type starts with "image". The result is no longer than the input, and when all attachments are images, all are kept. |
| Heartboard.ImageAttachmentsSingle | dev/events.ts:253 | A single attachment is kept iff it is an image. |
| Heartboard.ImageAttachmentsConcat | dev/events.ts:253 | The filter distributes over concatenation. With ImageAttachmentsSingle this fixes the result as exactly the images, in their original order. |
| Heartboard.MirrorEmbeds | dev/events.ts:246-259 | There are max(1, number of images) embeds. Embed 0 carries the text when there is any. Image i goes on embed i, and no other embed carries text. |
| Heartboard.Step | dev/events.ts:181-270 | An ignored event (heartboard off, the channel fetch finds nothing or an unsendable channel, foreign emoji, or the message is itself a mirror) changes nothing. The author guard only removes the reaction. Otherwise the decision is: untracked and below the threshold, nothing; untracked and at or above it, one mirror sent to the configured channel and the entry `(configured channel, message, new mirror)` appended; tracked with the mirror found, an edit in the configured channel when at or above and a delete plus splice when below; tracked with the mirror missing, nothing. When the needed write (member fetch and send, edit, or delete) is rejected, nothing changes. Only this message's entry can change, and entries stay one per message. |
| Heartboard.FailedWriteKeepsRegistry | dev/events.ts:226-261 | When Discord rejects the write a step needs, the registry is unchanged and at most the author's reaction is removed. |
| Heartboard.EntriesKeepConfiguredChannel | dev/events.ts:263-267 | If every entry records the configured output channel, so does every entry after a step. |
| Heartboard.StepIdempotent | dev/events.ts:217-270 | Re-processing the same event with the same answers from Discord leaves the registry as the first run left it. |
| Heartboard.AtMostOneMirror | dev/events.ts:217-222 | After a mirror is sent for a message, the next event on the same message cannot send another, whatever the configuration or Discord answers. |
| Heartboard.TrackedIffAtThreshold | dev/events.ts:217-241 | For an event past the filter and guard whose registered mirror is found, the message is tracked afterwards iff its total reaches the threshold. |
| Heartboard.OutcomeDependsOnMessageOnly | dev/events.ts:187-215 | Once past the guard, adds and removes of any configured emoji by anyone lead to the same transition. |
| Heartboard.StepKeepsNotMirror | dev/events.ts:263-267 | A step makes no message a mirror except the newly sent one. |
| Heartboard.ReplayInvariant | dev/events.ts:217-270 | Across any run of events on one message, entries stay one per message and the other entries keep their values and order. |
| Heartboard.ReplayConverges | dev/events.ts:217-270 | After any non-empty run of events on one message, the message is tracked iff the last observed reaction state reaches the threshold. |
| Heartboard.ConfigFor | dev/events.ts:176 | `getServerConfig ?? addConfig` is the stored configuration, or the default one added to the document. |
| Heartboard.HandleOnData | dev/events.ts:183-270 | On the data document: the effect is that of `Step` on the server's registry, created empty when missing. Afterwards the server's record holds the new registry and its other fields unchanged. Other servers' records and the shared memory are untouched, and entries stay one per message. |
| Heartboard.HandleReaction | dev/events.ts:168-271 | Outside a server nothing happens. Otherwise the config document is left exactly as it was when the server has a configuration, and otherwise gains only the default configuration, as `addConfig` appends it. When the channel fetch rejects, the data document is unchanged and nothing is done. Otherwise the data document and the effect are those of `HandleOnData` with the server's configuration. |
| Commands.ParseEmojis | dev/commands.ts:69 | The option is trimmed as a whole and split on commas. There is at least one part, no part has a comma, and joining the parts with commas gives back the trimmed option. |
| Commands.EditGuardAsWritten | dev/commands.ts:73-77 | The edit is refused iff all three booleans are given, the threshold is absent or 0, and neither emojis nor channel is given. |
| Commands.EditGuardAsWrittenRefusesRealEdit | dev/commands.ts:72-74 | A request that sets only the three switches is refused although it would change the default configuration. A request with no option passes. |
| Commands.EditGuardIntended | dev/commands.ts:72-77 | The guard the comment describes refuses iff no option at all is given. |
| Commands.EditGuardIntendedRefusesExactlyNoOps | dev/commands.ts:72-86 | The intended guard refuses a request iff merging it leaves every configuration unchanged. |
| Commands.MergeHeartBoard | dev/commands.ts:79-86 | Each given option replaces its field and every other field is kept. A threshold of any value is stored unvalidated. Given emojis become exactly `ParseEmojis` of the option. |
| Commands.MergeHeartBoardIdempotent | dev/commands.ts:79-86 | Applying the same edit twice equals applying it once. |
| Commands.HeartBoardEmbedFields | dev/commands.ts:21-33 | There are five named fields: "Yes" exactly when a switch is on, the threshold as `IntToString` writes it (canonical digits that parse back, with a sign when negative), emojis joined by ", ", and "No channel set" exactly when no channel is set; otherwise the channel field is the `<#id>` mention of the configured channel. |
| Commands.EmbedDeterminesSettings | dev/commands.ts:26-32 | Two configurations with the same embed agree on both switches, the threshold, the channel and the joined emojis. |
| Commands.ChannelMention | dev/commands.ts:31 | The mention is `<#`, then the id itself, then `>`. |
| Commands.ChannelMentionInjective | dev/commands.ts:31 | Distinct channel ids give distinct `<#id>` mentions. |
| Commands.AutocompleteChoice | dev/commands.ts:98-101 | The offered choice splits on commas back into the configured list when no emoji contains a comma. |
| Commands.AutocompleteRoundTrip | dev/commands.ts:99 | Parsing the offered choice (trim, then split as at line 69) gives back the list, when no emoji has a comma and the list has no whitespace at its outer ends. |
| Commands.HeartBoardExecute | dev/commands.ts:58-97 | View shows the embed and an ungrouped request does nothing; neither changes the document. A refused edit only notifies. An accepted edit stores the merged settings for the server, leaves other servers untouched, and shows the merged embed. |
| Commands.ParseInputs | dev/commands.ts:184 | Inputs split on single spaces. No id contains a space, and joining with spaces gives back the option. |
| Commands.DoubleSpaceGivesEmptyInput | dev/commands.ts:184 | Two spaces in a row put an empty channel id in the list. |
| Commands.MergeVoicePing | dev/commands.ts:181-205 | Each given option replaces its field and every other field is kept. Given inputs become exactly `ParseInputs` of the option. |
| Commands.MergeVoicePingNoOptions | dev/commands.ts:187-198 | An edit with no option changes nothing. |
| Commands.MergeVoicePingIdempotent | dev/commands.ts:187-205 | Applying the same edit twice equals applying it once. |
| Commands.FillTemplate | dev/commands.ts:169 | A template with neither placeholder is sent unchanged. With mentions free of `$`, the first `{user}` is replaced by the user mention, and then the first `{channel}` of that text by the channel mention, each character for character. |
| Commands.OnlyFirstUserFilled | dev/events.ts:163 | A second, separate `{user}` is still present after filling. |
| Commands.OnlyFirstChannelFilled | dev/commands.ts:169 | Without `{user}`, a second, separate `{channel}` is still present after filling. |
| Commands.TrailingUserGreeting | dev/events.ts:163 | A brace-free text followed by `{user}` greets with that text followed by the user mention. |
| Commands.DefaultGreeting | dev/events.ts:163 | The default template greets with "Welcome to the voice channel, <@id>". |
| Commands.VoicePingTest | dev/commands.ts:145-171 | The test posts to the configured output, or to the invoking channel when none is set. It fails exactly when that channel is not cached. The plain notice appears iff no fallback applied. The first input fills `{channel}`; a borrowed voice channel (or the invoking channel) is used when the template needs one and there are no inputs. With no inputs and no `{channel}` in the template, the mention is `<#undefined>`, as `inputChannels[0]` reads. |
| Commands.VoicePingExecute | dev/commands.ts:138-212 | A missing server yields nothing. A configuration is returned only by a settings edit, with only the voice-ping settings merged. Test and view return none, so nothing is persisted. |
| LegacyCommands.ServerIndex | Commands.ts:138 | The first server whose id is the guild's, and none outside a server. |
| LegacyCommands.LegacyExecute | Commands.ts:137-217 | With no document or no matching server, nothing is returned. Only an edit returns a document: same length, the merged record at the server's index, all other servers unchanged, and the reply shows the merged voice-ping settings. A view shows that server's voice-ping settings. Test behaves as in the current command. |
| LegacyCommands.LegacyEditIdempotent | Commands.ts:183-214 | Re-running an edit on its own result finds the server at the same index and returns the same document. |

## Left out

- File storage (reading, writing and JSON encoding of the documents), the busy flag and the retry timers. Each operation maps an in-memory document to a document.
- Concurrency: each reaction is handled as one atomic step. Interleavings of concurrent handlers, and the write of one handler overtaking another, are not modelled.
- Discord calls. They become the `Surface` answers and the `Effect`/reply values. The mirror embed's author name, avatar and timestamp are not modelled. The member fetch that supplies them appears only as part of the send, which may be rejected.
- Thresholds and counts are integers. Fractional or NaN thresholds from the number option are not modelled.
- Heartboard.ReplayConverges: it assumes Discord never hands out the source message's own id as a new mirror id, and that every event passes the filter and guard, finds its mirror and has its write accepted.
- A rejected channel fetch is modelled as ending the handler. discord.js resolves a fetch with an empty id to the whole channel collection; the model lets the surface answer that case like any other.
- Strings are sequences of Unicode scalar values, where JavaScript uses UTF-16 code units. Nothing the model states depends on the difference.
- Data.RepairedConfig: a config record read from the file is assumed to carry its id. Nested partial `heartBoard`/`voicePing` objects are kept as they are, as the code does, and are not modelled field by field.
- The chatbot fields of a server's data record are carried as strings. The model does not interpret them.
- The LLM chat path, the memory summaries, the database connection, the `/help` command and the command dispatch are not part of this model.
- The voice-ping settings embed (view and edit replies) is not rendered: replies carry the voice-ping settings they show.
- The voice-state trigger (which join announces) is not modelled. Only the greeting it sends is.
- Commands.FillTemplate: contracts are stated for mentions without `$`. The `$` substitution patterns are modelled in `Text.Expand` but not characterised further.

## Findings

| source | as written | input that shows it | evidently intended | confidence | as-written member | corrected member |
|---|---|---|---|---|---|---|
| dev/data.ts:170 | the registry is read from `serverData.heartboardMessage`, a key no writer uses | any stored record with an id and a non-empty `heartBoardMessages`; repair returns and writes back an empty registry | read `serverData.heartBoardMessages` | high; not executed | Data.RepairServerData (shown by Data.RepairServerDataDropsRegistry) | Data.RepairServerDataIntended (Data.RepairServerDataIntendedKeepsRecord) |
| dev/commands.ts:73-74 | `!(enabled === undefined \|\| cumulative === undefined \|\| denyAuthor === undefined \|\| threshold \|\| emojis \|\| channel)` | `enabled`, `cumulative` and `deny-author` given and nothing else is refused; a request with no option is accepted | refuse only when no option is given | high; not executed | Commands.EditGuardAsWritten (shown by Commands.EditGuardAsWrittenRefusesRealEdit) | Commands.EditGuardIntended (Commands.EditGuardIntendedRefusesExactlyNoOps) |

`Commands.HeartBoardExecute` keeps the guard as written, because that is the observable behaviour of the command. The corrected guard, and the proof that it refuses exactly the edits that change nothing, stand beside it.

=== FILE: commands.dfy ===
/**
 * The slash commands that read and change a server's configuration:
 * `/heartboard config view|edit` with its emoji autocomplete, and
 * `/voiceping test` and `/voiceping settings view|edit`, together with the
 * voice-ping greeting template that is also filled in when a user joins a
 * watched voice channel. Replies are values; Discord is not modelled.
 */
module Commands {
  import opened Wrappers
  import opened Types
  import opened Lists
  import opened Text
  import opened Data

  /** One field of a reply embed. */
  datatype Field = Field(name: string, value: string)

  function YesNo(b: bool): string {
    if b then "Yes" else "No"
  }

  /** `<#id>`, Discord's channel mention. */
  function ChannelMention(id: Snowflake): (r: string)
    ensures |r| == |id| + 3 && r[0] == '<'
    ensures r[..2] == "<#" && r[2..|r| - 1] == id && r[|r| - 1] == '>'
  {
    var r := "<#" + id + ">";
    assert r[2..|r| - 1] == id;
    r
  }

  lemma ChannelMentionInjective(a: Snowflake, b: Snowflake)
    ensures ChannelMention(a) == ChannelMention(b) ==> a == b
  {
    if ChannelMention(a) == ChannelMention(b) {
      assert a == ChannelMention(a)[2..|ChannelMention(a)| - 1];
      assert b == ChannelMention(b)[2..|ChannelMention(b)| - 1];
    }
  }

  // ---------------------------------------------------------------------
  // /heartboard

  /** The options of `/heartboard config edit`; `None` for an option not given. */
  datatype HeartBoardEditOptions = HeartBoardEditOptions(
    enabled: Option<bool>,
    cumulative: Option<bool>,
    denyAuthor: Option<bool>,
    threshold: Option<int>,
    emojis: Option<string>,
    outputChannel: Option<Snowflake>)

  const NoHeartBoardOptions: HeartBoardEditOptions := HeartBoardEditOptions(None, None, None, None, None, None)

  /** The emoji option is trimmed as a whole and split on commas; the parts are not trimmed. */
  function ParseEmojis(raw: string): (r: seq<string>)
    ensures |r| >= 1
    ensures forall i :: 0 <= i < |r| ==> ',' !in r[i]
    ensures Join(r, ",") == Trim(raw)
  {
    JoinSplit(Trim(raw), ',');
    Split(Trim(raw), ',')
  }

  /** JavaScript truthiness of the number option: absent and 0 are both falsy. */
  predicate Truthy(n: Option<int>) {
    n.Some? && n.value != 0
  }

  /**
   * The "no option given" guard of the edit, as the code writes it: the
   * negation of a disjunction whose first three terms test for an ABSENT
   * boolean. It turns a request away exactly when all three booleans are
   * given and nothing else is (a threshold of 0 counting as not given).
   */
  function EditGuardAsWritten(o: HeartBoardEditOptions): (reject: bool)
    ensures reject <==>
      && o.enabled.Some? && o.cumulative.Some? && o.denyAuthor.Some?
      && (o.threshold.None? || o.threshold.value == 0)
      && o.emojis.None? && o.outputChannel.None?
  {
    !(o.enabled.None? || o.cumulative.None? || o.denyAuthor.None?
      || Truthy(o.threshold) || o.emojis.Some? || o.outputChannel.Some?)
  }

  /** The guard its comment describes: turn the request away when no option is given. */
  function EditGuardIntended(o: HeartBoardEditOptions): (reject: bool)
    ensures reject <==> o == NoHeartBoardOptions
  {
    && o.enabled.None? && o.cumulative.None? && o.denyAuthor.None?
    && o.threshold.None? && o.emojis.None? && o.outputChannel.None?
  }

  /**
   * The edit merge: each supplied option replaces its field, every other
   * field keeps its value. The threshold is stored unvalidated (0 and
   * negative numbers included).
   */
  function MergeHeartBoard(hb: HeartBoardConfig, o: HeartBoardEditOptions): (r: HeartBoardConfig)
    ensures o.enabled.Some? ==> r.enabled == o.enabled.value
    ensures o.enabled.None? ==> r.enabled == hb.enabled
    ensures o.cumulative.Some? ==> r.cumulative == o.cumulative.value
    ensures o.cumulative.None? ==> r.cumulative == hb.cumulative
    ensures o.denyAuthor.Some? ==> r.denyAuthor == o.denyAuthor.value
    ensures o.denyAuthor.None? ==> r.denyAuthor == hb.denyAuthor
    ensures o.threshold.Some? ==> r.thresholdNumber == o.threshold.value
    ensures o.threshold.None? ==> r.thresholdNumber == hb.thresholdNumber
    ensures o.emojis.Some? ==> r.emojis == ParseEmojis(o.emojis.value)
    ensures o.emojis.Some? ==> Join(r.emojis, ",") == Trim(o.emojis.value) && |r.emojis| >= 1
    ensures o.emojis.None? ==> r.emojis == hb.emojis
    ensures o.outputChannel.Some? ==> r.outputChannel == o.outputChannel.value
    ensures o.outputChannel.None? ==> r.outputChannel == hb.outputChannel
  {
    HeartBoardConfig(
      o.enabled.GetOr(hb.enabled),
      o.cumulative.GetOr(hb.cumulative),
      o.denyAuthor.GetOr(hb.denyAuthor),
      o.threshold.GetOr(hb.thresholdNumber),
      if o.emojis.Some? then ParseEmojis(o.emojis.value) else hb.emojis,
      o.outputChannel.GetOr(hb.outputChannel))
  }

  lemma MergeHeartBoardIdempotent(hb: HeartBoardConfig, o: HeartBoardEditOptions)
    ensures MergeHeartBoard(MergeHeartBoard(hb, o), o) == MergeHeartBoard(hb, o)
  {
  }

  /**
   * The intended guard refuses exactly the requests that would change
   * nothing: a request is refused iff merging it is the identity on every
   * configuration.
   */
  lemma EditGuardIntendedRefusesExactlyNoOps(o: HeartBoardEditOptions)
    ensures EditGuardIntended(o) <==> forall hb :: MergeHeartBoard(hb, o) == hb
  {
    if !EditGuardIntended(o) {
      var hb := ChangedBy(o);
      var m := MergeHeartBoard(hb, o);
      if o.enabled.Some? {
        assert m.enabled != hb.enabled;
      } else if o.cumulative.Some? {
        assert m.cumulative != hb.cumulative;
      } else if o.denyAuthor.Some? {
        assert m.denyAuthor != hb.denyAuthor;
      } else if o.threshold.Some? {
        assert m.thresholdNumber != hb.thresholdNumber;
      } else if o.emojis.Some? {
        assert |m.emojis| != |hb.emojis|;
      } else {
        assert |m.outputChannel| != |hb.outputChannel|;
      }
    }
  }

  /** A configuration that every given option of `o` would change. */
  function ChangedBy(o: HeartBoardEditOptions): HeartBoardConfig {
    HeartBoardConfig(
      if o.enabled.Some? then !o.enabled.value else false,
      if o.cumulative.Some? then !o.cumulative.value else false,
      if o.denyAuthor.Some? then !o.denyAuthor.value else false,
      if o.threshold.Some? then o.threshold.value + 1 else 0,
      [],
      if o.outputChannel.Some? then o.outputChannel.value + "#" else "")
  }

  /**
   * As written, the guard refuses a request that sets all three switches
   * (which would change the default configuration) and lets through a
   * request that sets nothing.
   */
  lemma EditGuardAsWrittenRefusesRealEdit()
    ensures var o := HeartBoardEditOptions(Some(true), Some(true), Some(true), None, None, None);
      && EditGuardAsWritten(o)
      && MergeHeartBoard(DefaultHeartboardConfig, o) != DefaultHeartboardConfig
    ensures !EditGuardAsWritten(NoHeartBoardOptions)
  {
  }

  /** The fields of the settings embed, in order. */
  function HeartBoardEmbedFields(hb: HeartBoardConfig): (r: seq<Field>)
    ensures |r| == 5
    ensures r[0].name == "Enabled" && (r[0].value == "Yes" <==> hb.enabled) && r[0].value in {"Yes", "No"}
    ensures r[1].name == "Cumulative Threshold" && (r[1].value == "Yes" <==> hb.cumulative) && r[1].value in {"Yes", "No"}
    ensures r[2].name == "Threshold Value" && r[2].value == IntToString(hb.thresholdNumber)
    ensures hb.thresholdNumber >= 0 ==> IsDigits(r[2].value) && DigitsValue(r[2].value) == hb.thresholdNumber
    ensures hb.thresholdNumber < 0 ==>
      |r[2].value| >= 2 && r[2].value[0] == '-' && IsDigits(r[2].value[1..]) && DigitsValue(r[2].value[1..]) == -hb.thresholdNumber
    ensures r[3].name == "Emojis" && r[3].value == Join(hb.emojis, ", ")
    ensures r[4].name == "HeartBoard Channel"
    ensures r[4].value == "No channel set" <==> hb.outputChannel == ""
    ensures hb.outputChannel != "" ==> r[4].value == ChannelMention(hb.outputChannel)
  {
    [ Field("Enabled", YesNo(hb.enabled)),
      Field("Cumulative Threshold", YesNo(hb.cumulative)),
      Field("Threshold Value", IntToString(hb.thresholdNumber)),
      Field("Emojis", Join(hb.emojis, ", ")),
      Field("HeartBoard Channel", if hb.outputChannel != "" then ChannelMention(hb.outputChannel) else "No channel set") ]
  }

  /**
   * The embed is faithful: two configurations shown the same way agree on
   * both switches, the threshold, the output channel and the joined emojis.
   */
  lemma EmbedDeterminesSettings(a: HeartBoardConfig, b: HeartBoardConfig)
    requires HeartBoardEmbedFields(a) == HeartBoardEmbedFields(b)
    ensures a.enabled == b.enabled && a.cumulative == b.cumulative
    ensures a.thresholdNumber == b.thresholdNumber
    ensures a.outputChannel == b.outputChannel
    ensures Join(a.emojis, ", ") == Join(b.emojis, ", ")
  {
    if a.outputChannel != "" && b.outputChannel != "" {
      ChannelMentionInjective(a.outputChannel, b.outputChannel);
    }
  }

  /** The one autocomplete choice offered for the emoji option: the configured emojis joined by commas. */
  function AutocompleteChoice(hb: HeartBoardConfig): (r: string)
    ensures |hb.emojis| >= 1 && (forall i :: 0 <= i < |hb.emojis| ==> ',' !in hb.emojis[i]) ==>
      Split(r, ',') == hb.emojis
  {
    assert |hb.emojis| >= 1 && (forall i :: 0 <= i < |hb.emojis| ==> ',' !in hb.emojis[i]) ==>
      Split(Join(hb.emojis, ","), ',') == hb.emojis by {
      if |hb.emojis| >= 1 && (forall i :: 0 <= i < |hb.emojis| ==> ',' !in hb.emojis[i]) {
        SplitJoin(hb.emojis, ',');
      }
    }
    Join(hb.emojis, ",")
  }

  /** The first and last characters of a join come from the outer elements, or are the separator. */
  lemma {:induction false} JoinTrimmed(xs: seq<string>)
    requires |xs| >= 1
    requires |xs[0]| == 0 || !IsWhitespace(xs[0][0])
    requires |xs[|xs| - 1]| == 0 || !IsWhitespace(xs[|xs| - 1][|xs[|xs| - 1]| - 1])
    ensures Trimmed(Join(xs, ","))
  {
    var s := Join(xs, ",");
    if |xs| > 1 {
      var n := |xs| - 1;
      assert xs == xs[..n] + [xs[n]];
      JoinSnoc(xs[..n], xs[n], ",");
      assert s == Join(xs[..n], ",") + "," + xs[n];
      assert s == xs[0] + "," + Join(xs[1..], ",");
      assert s[0] == if |xs[0]| > 0 then xs[0][0] else ',';
      assert s[|s| - 1] == if |xs[n]| > 0 then xs[n][|xs[n]| - 1] else ',';
    }
  }

  /**
   * Picking the autocomplete choice gives back the configured emoji list,
   * provided no emoji contains a comma and the list has no whitespace at its
   * two outer ends (the whole option is trimmed before splitting).
   */
  lemma AutocompleteRoundTrip(hb: HeartBoardConfig)
    requires |hb.emojis| >= 1
    requires forall i :: 0 <= i < |hb.emojis| ==> ',' !in hb.emojis[i]
    requires |hb.emojis[0]| == 0 || !IsWhitespace(hb.emojis[0][0])
    requires var last := hb.emojis[|hb.emojis| - 1]; |last| == 0 || !IsWhitespace(last[|last| - 1])
    ensures ParseEmojis(AutocompleteChoice(hb)) == hb.emojis
  {
    JoinTrimmed(hb.emojis);
  }

  /** `/heartboard` as the server sees it: the `config` group's two subcommands, or anything else. */
  datatype HeartBoardRequest = ConfigView | ConfigEdit(options: HeartBoardEditOptions) | OutsideConfigGroup

  /** An ephemeral reply: nothing, a plain notice, or the settings embed with optional text. */
  datatype Reply = NoReply | Notice(text: string) | Settings(content: Option<string>, fields: seq<Field>)

  /**
   * `/heartboard`: view shows the settings; edit, unless the guard refuses
   * it, merges the options into the server's configuration and writes it to
   * the config document. Only an accepted edit changes the document.
   */
  function HeartBoardExecute(doc: ConfigData, server: ServerConfig, req: HeartBoardRequest): (r: (ConfigData, Reply))
    ensures !req.ConfigEdit? || EditGuardAsWritten(req.options) ==> r.0 == doc
    ensures req.ConfigView? ==> r.1 == Settings(None, HeartBoardEmbedFields(server.heartBoard))
    ensures req.OutsideConfigGroup? ==> r.1 == NoReply
    ensures req.ConfigEdit? && EditGuardAsWritten(req.options) ==> r.1 == Notice("Please give an option to change!")
    ensures req.ConfigEdit? && !EditGuardAsWritten(req.options) ==>
      var merged := MergeHeartBoard(server.heartBoard, req.options);
      && GetServerConfig(r.0, server.id) == Some(server.(heartBoard := merged))
      && Without(r.0.servers, ConfigIdOf, server.id) == Without(doc.servers, ConfigIdOf, server.id)
      && r.1 == Settings(Some("Successfully edited HeartBoard settings"), HeartBoardEmbedFields(merged))
  {
    match req
    case OutsideConfigGroup => (doc, NoReply)
    case ConfigView => (doc, Settings(None, HeartBoardEmbedFields(server.heartBoard)))
    case ConfigEdit(o) =>
      if EditGuardAsWritten(o) then (doc, Notice("Please give an option to change!"))
      else
        var updated := server.(heartBoard := MergeHeartBoard(server.heartBoard, o));
        (EditServerConfig(doc, updated), Settings(Some("Successfully edited HeartBoard settings"), HeartBoardEmbedFields(updated.heartBoard)))
  }

  // ---------------------------------------------------------------------
  // /voiceping

  /** The options of `/voiceping settings edit`; `None` for an option not given. */
  datatype VoicePingEditOptions = VoicePingEditOptions(
    enabled: Option<bool>,
    message: Option<string>,
    inputs: Option<string>,
    output: Option<Snowflake>)

  const NoVoicePingOptions: VoicePingEditOptions := VoicePingEditOptions(None, None, None, None)

  /** The inputs option: channel ids separated by single spaces. */
  function ParseInputs(raw: string): (r: seq<Snowflake>)
    ensures |r| >= 1
    ensures forall i :: 0 <= i < |r| ==> ' ' !in r[i]
    ensures Join(r, " ") == raw
  {
    JoinSplit(raw, ' ');
    Split(raw, ' ')
  }

  /** Two spaces in a row put an empty channel id in the list. */
  lemma DoubleSpaceGivesEmptyInput(raw: string, i: nat)
    requires i + 1 < |raw| && raw[i] == ' ' && raw[i + 1] == ' '
    ensures "" in ParseInputs(raw)
  {
    AdjacentSeparatorsGiveEmptyPart(raw, ' ', i);
  }

  /** The settings edit: each supplied option replaces its field, every other field keeps its value. */
  function MergeVoicePing(vp: VoicePingConfig, o: VoicePingEditOptions): (r: VoicePingConfig)
    ensures o.enabled.Some? ==> r.enabled == o.enabled.value
    ensures o.enabled.None? ==> r.enabled == vp.enabled
    ensures o.message.Some? ==> r.voicePingMessage == o.message.value
    ensures o.message.None? ==> r.voicePingMessage == vp.voicePingMessage
    ensures o.inputs.Some? ==> r.inputChannels == ParseInputs(o.inputs.value)
    ensures o.inputs.Some? ==> Join(r.inputChannels, " ") == o.inputs.value && |r.inputChannels| >= 1
    ensures o.inputs.None? ==> r.inputChannels == vp.inputChannels
    ensures o.output.Some? ==> r.outputChannel == o.output.value
    ensures o.output.None? ==> r.outputChannel == vp.outputChannel
  {
    VoicePingConfig(
      o.enabled.GetOr(vp.enabled),
      o.message.GetOr(vp.voicePingMessage),
      if o.inputs.Some? then ParseInputs(o.inputs.value) else vp.inputChannels,
      o.output.GetOr(vp.outputChannel))
  }

  lemma MergeVoicePingNoOptions(vp: VoicePingConfig)
    ensures MergeVoicePing(vp, NoVoicePingOptions) == vp
  {
  }

  lemma MergeVoicePingIdempotent(vp: VoicePingConfig, o: VoicePingEditOptions)
    ensures MergeVoicePing(MergeVoicePing(vp, o), o) == MergeVoicePing(vp, o)
  {
  }

  /**
   * The greeting: the first `{user}` becomes the user mention, then the
   * first `{channel}` of that result becomes the channel mention.
   */
  function FillTemplate(template: string, user: string, channel: string): (r: string)
    ensures !Includes(template, "{user}") && !Includes(template, "{channel}") ==> r == template
    ensures '$' !in user && '$' !in channel ==>
      r == SpliceFirst(SpliceFirst(template, "{user}", user), "{channel}", channel)
  {
    ReplaceFirst(ReplaceFirst(template, "{user}", user), "{channel}", channel)
  }

  /** An occurrence of `{channel}` and one of `{user}` never overlap. */
  lemma PlaceholdersDisjoint(s: string, k: int, j: int)
    requires OccursAt(s, "{channel}", k) && OccursAt(s, "{user}", j)
    ensures k + 9 <= j || j + 6 <= k
  {
    forall p | k <= p < k + 9 ensures s[p] == "{channel}"[p - k] {
      assert s[p] == s[k..k + 9][p - k];
    }
    forall p | j <= p < j + 6 ensures s[p] == "{user}"[p - j] {
      assert s[p] == s[j..j + 6][p - j];
    }
    assert s[j] == '{' && s[k] == '{';
    assert s[j + 1] == 'u' && s[k + 1] == 'c';
  }

  /**
   * Only the first `{user}` is filled in: a template with a second,
   * separate `{user}` still shows one after filling (mentions without `$`).
   */
  lemma OnlyFirstUserFilled(template: string, user: string, channel: string, j: int)
    requires '$' !in user && '$' !in channel
    requires OccursAt(template, "{user}", j) && IndexOf(template, "{user}") + 6 <= j
    ensures Includes(FillTemplate(template, user, channel), "{user}")
  {
    var mid := ReplaceFirst(template, "{user}", user);
    var j' := j - 6 + |user|;
    OccurrenceAfterSurvives(template, "{user}", user, "{user}", j);
    assert OccursAt(mid, "{user}", j');
    if Includes(mid, "{channel}") {
      PlaceholdersDisjoint(mid, IndexOf(mid, "{channel}"), j');
      OccurrenceSurvives(mid, "{channel}", channel, "{user}", j');
    }
  }

  /**
   * Only the first `{channel}` is filled in: in a template without `{user}`,
   * a second, separate `{channel}` survives.
   */
  lemma OnlyFirstChannelFilled(template: string, user: string, channel: string, j: int)
    requires '$' !in channel && !Includes(template, "{user}")
    requires OccursAt(template, "{channel}", j) && IndexOf(template, "{channel}") + 9 <= j
    ensures Includes(FillTemplate(template, user, channel), "{channel}")
  {
    OccurrenceAfterSurvives(template, "{channel}", channel, "{channel}", j);
  }

  /** The greeting sent when a user joins a watched voice channel. */
  function JoinGreeting(vp: VoicePingConfig, userId: Snowflake, channelId: Snowflake): string {
    FillTemplate(vp.voicePingMessage, "<@" + userId + ">", ChannelMention(channelId))
  }

  const GreetingPrefix: string := "Welcome to the voice channel, "

  /** The default template is brace-free text followed by a single `{user}`. */
  lemma DefaultTemplateShape()
    ensures DefaultVoicepingConfig.voicePingMessage == GreetingPrefix + "{user}"
    ensures '{' !in GreetingPrefix
  {
  }

  /**
   * A template that is brace-free text followed by one `{user}` greets with
   * that text followed by the user mention (mentions without `$` or braces).
   */
  lemma TrailingUserGreeting(prefix: string, userId: Snowflake, channelId: Snowflake)
    requires '{' !in prefix && '$' !in userId && '{' !in userId
    ensures FillTemplate(prefix + "{user}", "<@" + userId + ">", ChannelMention(channelId)) == prefix + "<@" + userId + ">"
  {
    var t := prefix + "{user}";
    var u := "<@" + userId + ">";
    var n := |prefix|;
    assert OccursAt(t, "{user}", n);
    forall i | 0 <= i < n ensures !OccursAt(t, "{user}", i) {
      assert t[i] == prefix[i] != '{';
      assert t[i..i + 6][0] == t[i];
    }
    assert IndexOf(t, "{user}") == n;
    assert t[..n] == prefix && t[n + 6..] == "";
    ExpandLiteral(u, "{user}", t[..n], t[n + 6..]);
    var mid := ReplaceFirst(t, "{user}", u);
    assert mid == prefix + u;
    assert '{' !in mid;
    AbsentLeadChar(mid, "{channel}");
    MentionAppend(prefix, "<@", userId, ">");
  }

  /** With the default template the greeting is the fixed text followed by the user mention. */
  lemma DefaultGreeting(userId: Snowflake, channelId: Snowflake)
    requires '$' !in userId && '{' !in userId
    ensures JoinGreeting(DefaultVoicepingConfig, userId, channelId) == GreetingPrefix + "<@" + userId + ">"
  {
    DefaultTemplateShape();
    TrailingUserGreeting(GreetingPrefix, userId, channelId);
  }

  lemma MentionAppend(a: string, b: string, c: string, d: string)
    ensures a + (b + c + d) == a + b + c + d
  {
  }

  /**
   * What a `/voiceping test` invocation can see: its own channel, the first
   * voice channel in the server's cache, the ids of the cached channels, and
   * the invoking user's mention.
   */
  datatype TestContext = TestContext(
    channelId: Option<Snowflake>,
    firstVoiceChannel: Option<Snowflake>,
    cachedChannels: set<Snowflake>,
    userMention: string)

  datatype TestOutcome = InvalidOutput | TestSent(notice: string, target: Snowflake, text: string)

  const NoOutputNotice: string := "No output channel set! Testing in this channel.\n"
  const NoInputNotice: string := "No input channels set! Testing using a random voice channel."
  const TestingNotice: string := "Testing voice ping message!"

  /** The channel a test posts to: the configured output, or the invoking channel when none is set. */
  function TestTarget(vp: VoicePingConfig, ctx: TestContext): Snowflake {
    if vp.outputChannel == "" then ctx.channelId.GetOr("") else vp.outputChannel
  }

  /** The test borrows a voice channel when the template mentions `{channel}` and no input is configured. */
  predicate BorrowsChannel(vp: VoicePingConfig) {
    Includes(vp.voicePingMessage, "{channel}") && vp.inputChannels == []
  }

  /**
   * `/voiceping test`: fills the greeting for the invoking user and posts it
   * to the output channel, falling back to the invoking channel and to a
   * borrowed voice channel, and noting each fallback to the invoker. The
   * configuration itself is never changed.
   */
  function VoicePingTest(vp: VoicePingConfig, ctx: TestContext): (r: TestOutcome)
    ensures r.InvalidOutput? <==> TestTarget(vp, ctx) !in ctx.cachedChannels
    ensures r.TestSent? ==> r.target == TestTarget(vp, ctx)
    ensures vp.outputChannel != "" && r.TestSent? ==> r.target == vp.outputChannel
    ensures r.TestSent? ==> (r.notice == TestingNotice <==> vp.outputChannel != "" && !BorrowsChannel(vp))
    ensures r.TestSent? && vp.inputChannels != [] ==>
      r.text == FillTemplate(vp.voicePingMessage, ctx.userMention, ChannelMention(vp.inputChannels[0]))
    ensures r.TestSent? && BorrowsChannel(vp) ==>
      r.text == FillTemplate(vp.voicePingMessage, ctx.userMention,
                             ChannelMention(ctx.firstVoiceChannel.GetOr(ctx.channelId.GetOr(""))))
    // `<#${inputChannels[0]}>` with no inputs reads the missing element as `undefined`
    ensures r.TestSent? && vp.inputChannels == [] && !BorrowsChannel(vp) ==>
      r.text == FillTemplate(vp.voicePingMessage, ctx.userMention, ChannelMention("undefined"))
  {
    var target := TestTarget(vp, ctx);
    var notice := if vp.outputChannel == "" then NoOutputNotice else "";
    var borrow := BorrowsChannel(vp);
    var notice := if borrow then notice + NoInputNotice else notice;
    var inputs := if borrow then [ctx.firstVoiceChannel.GetOr(ctx.channelId.GetOr(""))] else vp.inputChannels;
    if target !in ctx.cachedChannels then InvalidOutput
    else
      var notice := if notice == "" then TestingNotice else notice;
      var first := if |inputs| > 0 then inputs[0] else "undefined";
      TestSent(notice, target, FillTemplate(vp.voicePingMessage, ctx.userMention, ChannelMention(first)))
  }

  /** `/voiceping` as the server sees it. */
  datatype VoicePingRequest = VoiceTest | SettingsView | SettingsEdit(options: VoicePingEditOptions) | OutsideSettingsGroup

  datatype VoicePingReply = ServerMissing | Tested(outcome: TestOutcome) | VoiceSettings(voicePing: VoicePingConfig) | NoVoiceReply

  /**
   * `/voiceping`: only a settings edit yields a configuration, which the
   * caller then persists; test and view yield none, so they change nothing.
   */
  function VoicePingExecute(server: Option<ServerConfig>, req: VoicePingRequest, ctx: TestContext): (r: (Option<ServerConfig>, VoicePingReply))
    ensures server.None? ==> r == (None, ServerMissing)
    ensures r.0.Some? <==> server.Some? && req.SettingsEdit?
    ensures r.0.Some? ==>
      && r.0.value == server.value.(voicePing := r.0.value.voicePing)
      && r.0.value.voicePing == MergeVoicePing(server.value.voicePing, req.options)
      && r.1 == VoiceSettings(r.0.value.voicePing)
    ensures server.Some? && req.VoiceTest? ==> r.1 == Tested(VoicePingTest(server.value.voicePing, ctx))
    ensures server.Some? && req.SettingsView? ==> r.1 == VoiceSettings(server.value.voicePing)
  {
    if server.None? then (None, ServerMissing)
    else
      var s := server.value;
      match req
      case VoiceTest => (None, Tested(VoicePingTest(s.voicePing, ctx)))
      case SettingsView => (None, VoiceSettings(s.voicePing))
      case SettingsEdit(o) =>
        var updated := s.(voicePing := MergeVoicePing(s.voicePing, o));
        (Some(updated), VoiceSettings(updated.voicePing))
      case OutsideSettingsGroup => (None, NoVoiceReply)
  }
}

=== FILE: data.dfy ===
/**
 * The store operations over the two in-memory documents: the data document
 * (`SaveData`, one `ServerData` per server) and the config document
 * (`ConfigData`, one `ServerConfig` per server). Reading and writing the files
 * is not modelled: each operation maps a document to a document.
 */
module Data {
  import opened Wrappers
  import opened Types
  import opened Lists

  function EmptyServerData(guildID: Snowflake): ServerData {
    ServerData(guildID, [], "", [], [])
  }

  function DefaultServerConfig(guildID: Snowflake): ServerConfig {
    ServerConfig(guildID, false, [], DefaultHeartboardConfig, DefaultVoicepingConfig)
  }

  /** `find` by server id in the data document. */
  function LookupData(doc: SaveData, guildID: Snowflake): (r: Option<ServerData>)
    ensures r.None? <==> forall i :: 0 <= i < |doc.servers| ==> doc.servers[i].id != guildID
    ensures r.Some? ==> r.value.id == guildID && r.value in doc.servers
  {
    var i := FindKey(doc.servers, DataIdOf, guildID);
    if i == -1 then None else Some(doc.servers[i])
  }

  /**
   * `addData`: the stored record for `guildID` with the document unchanged,
   * or a fresh empty record appended to the document.
   */
  function AddData(doc: SaveData, guildID: Snowflake): (r: (SaveData, ServerData))
    ensures r.1.id == guildID && LookupData(r.0, guildID) == Some(r.1)
    ensures LookupData(doc, guildID).Some? ==> r == (doc, LookupData(doc, guildID).value)
    ensures LookupData(doc, guildID).None? ==>
      r.0 == doc.(servers := doc.servers + [EmptyServerData(guildID)]) && r.1 == EmptyServerData(guildID)
  {
    var (servers, record) := FindOrAppend(doc.servers, DataIdOf, guildID, EmptyServerData(guildID));
    (doc.(servers := servers), record)
  }

  /** `addConfig`: the same find-or-append, with the default configuration. */
  function AddConfig(doc: ConfigData, guildID: Snowflake): (r: (ConfigData, ServerConfig))
    ensures r.1.id == guildID && GetServerConfig(r.0, guildID) == Some(r.1)
    ensures GetServerConfig(doc, guildID).Some? ==> r == (doc, GetServerConfig(doc, guildID).value)
    ensures GetServerConfig(doc, guildID).None? ==>
      r.0.servers == doc.servers + [DefaultServerConfig(guildID)] && r.1 == DefaultServerConfig(guildID)
  {
    var (servers, record) := FindOrAppend(doc.servers, ConfigIdOf, guildID, DefaultServerConfig(guildID));
    (ConfigData(servers), record)
  }

  /** A second `addData` for the same server changes nothing more. */
  lemma AddDataIdempotent(doc: SaveData, guildID: Snowflake)
    ensures AddData(AddData(doc, guildID).0, guildID) == AddData(doc, guildID)
  {
  }

  /** `getServerData`: always yields a record, adding one when the server is unknown. */
  function GetServerData(doc: SaveData, guildID: Snowflake): (r: (SaveData, ServerData))
    ensures r == AddData(doc, guildID)
    ensures r.1.id == guildID
  {
    var found := LookupData(doc, guildID);
    if found.Some? then (doc, found.value) else AddData(doc, guildID)
  }

  /** `getServerConfig`: the first configuration with the id, or none; never adds. */
  function GetServerConfig(doc: ConfigData, guildID: Snowflake): (r: Option<ServerConfig>)
    ensures r.None? <==> forall i :: 0 <= i < |doc.servers| ==> doc.servers[i].id != guildID
    ensures r.Some? ==> r.value.id == guildID && r.value in doc.servers
  {
    var i := FindKey(doc.servers, ConfigIdOf, guildID);
    if i == -1 then None else Some(doc.servers[i])
  }

  /**
   * `editServerData`: the record replaces the first one with its id, or is
   * appended; every other record keeps its value and its place.
   */
  function EditServerData(doc: SaveData, record: ServerData): (r: SaveData)
    ensures LookupData(r, record.id) == Some(record)
    ensures Without(r.servers, DataIdOf, record.id) == Without(doc.servers, DataIdOf, record.id)
    ensures |r.servers| == if LookupData(doc, record.id).None? then |doc.servers| + 1 else |doc.servers|
    ensures forall i :: 0 <= i < |doc.servers| && doc.servers[i].id != record.id ==> r.servers[i] == doc.servers[i]
    ensures r.grokCoreMemory == doc.grokCoreMemory
  {
    WithoutUpsert(doc.servers, DataIdOf, record);
    var servers := Upsert(doc.servers, DataIdOf, record);
    assert servers[FindKey(servers, DataIdOf, record.id)] == record;
    doc.(servers := servers)
  }

  /** `editServerConfig`: the same replace-or-append over the config document. */
  function EditServerConfig(doc: ConfigData, record: ServerConfig): (r: ConfigData)
    ensures GetServerConfig(r, record.id) == Some(record)
    ensures Without(r.servers, ConfigIdOf, record.id) == Without(doc.servers, ConfigIdOf, record.id)
    ensures |r.servers| == if GetServerConfig(doc, record.id).None? then |doc.servers| + 1 else |doc.servers|
    ensures forall i :: 0 <= i < |doc.servers| && doc.servers[i].id != record.id ==> r.servers[i] == doc.servers[i]
  {
    WithoutUpsert(doc.servers, ConfigIdOf, record);
    var servers := Upsert(doc.servers, ConfigIdOf, record);
    assert servers[FindKey(servers, ConfigIdOf, record.id)] == record;
    ConfigData(servers)
  }

  lemma EditServerDataIdempotent(doc: SaveData, record: ServerData)
    ensures EditServerData(EditServerData(doc, record), record) == EditServerData(doc, record)
  {
    UpsertIdempotent(doc.servers, DataIdOf, record);
  }

  lemma EditServerConfigIdempotent(doc: ConfigData, record: ServerConfig)
    ensures EditServerConfig(EditServerConfig(doc, record), record) == EditServerConfig(doc, record)
  {
    UpsertIdempotent(doc.servers, ConfigIdOf, record);
  }

  /**
   * A data record as found in the file, before repair: any field may be
   * missing (`undefined` or `null`). Both spellings of the registry key are
   * represented, because repair reads `heartboardMessage` while every writer
   * stores `heartBoardMessages`.
   */
  datatype StoredServerData = StoredServerData(
    id: Option<Snowflake>,
    heartBoardMessages: Option<seq<HeartBoardMessage>>,
    heartboardMessage: Option<seq<HeartBoardMessage>>,
    chatbotCoreMemory: Option<string>,
    chatbotLongtermMemory: Option<seq<string>>,
    chatbotShortTermMessages: Option<seq<string>>)

  /** How a well-formed record looks in the file. */
  function StoreData(d: ServerData): StoredServerData {
    StoredServerData(Some(d.id), Some(d.heartBoardMessages), None, Some(d.chatbotCoreMemory),
                     Some(d.chatbotLongtermMemory), Some(d.chatbotShortTermMessages))
  }

  /** The outcome of a data repair: the input returned untouched, or a repaired record. */
  datatype DataRepair = LeftAsIs(stored: StoredServerData) | Repaired(data: ServerData)

  /** `!serverData.id`: the id is missing or empty. */
  predicate FalsyId(id: Option<Snowflake>) {
    id.None? || id.value == ""
  }

  /**
   * `repairServerData` as written: a record without an id is returned as is
   * and the document is untouched; otherwise present chatbot fields are kept,
   * missing ones defaulted, the registry is read from the key
   * `heartboardMessage`, and the repaired record is written back.
   */
  function RepairServerData(doc: SaveData, stored: StoredServerData): (r: (SaveData, DataRepair))
    ensures FalsyId(stored.id) <==> r.1.LeftAsIs?
    ensures r.1.LeftAsIs? ==> r == (doc, LeftAsIs(stored))
    ensures r.1.Repaired? ==>
      && r.1.data.id == stored.id.value
      && r.1.data.heartBoardMessages == (if stored.heartboardMessage.Some? then stored.heartboardMessage.value else [])
      && (stored.chatbotCoreMemory.Some? ==> r.1.data.chatbotCoreMemory == stored.chatbotCoreMemory.value)
      && (stored.chatbotCoreMemory.None? ==> r.1.data.chatbotCoreMemory == "")
      && (stored.chatbotLongtermMemory.Some? ==> r.1.data.chatbotLongtermMemory == stored.chatbotLongtermMemory.value)
      && (stored.chatbotLongtermMemory.None? ==> r.1.data.chatbotLongtermMemory == [])
      && (stored.chatbotShortTermMessages.Some? ==> r.1.data.chatbotShortTermMessages == stored.chatbotShortTermMessages.value)
      && (stored.chatbotShortTermMessages.None? ==> r.1.data.chatbotShortTermMessages == [])
      && LookupData(r.0, stored.id.value) == Some(r.1.data)
      && Without(r.0.servers, DataIdOf, stored.id.value) == Without(doc.servers, DataIdOf, stored.id.value)
      && r.0.grokCoreMemory == doc.grokCoreMemory
  {
    if FalsyId(stored.id) then (doc, LeftAsIs(stored))
    else
      var fixed := ServerData(
        stored.id.value,
        stored.heartboardMessage.GetOr([]),
        stored.chatbotCoreMemory.GetOr(""),
        stored.chatbotLongtermMemory.GetOr([]),
        stored.chatbotShortTermMessages.GetOr([]));
      (EditServerData(doc, fixed), Repaired(fixed))
  }

  /**
   * As written, repairing a well-formed record that has registry entries
   * empties its registry, in the returned record and in the document.
   */
  lemma RepairServerDataDropsRegistry(doc: SaveData, d: ServerData)
    requires d.id != "" && |d.heartBoardMessages| > 0
    ensures RepairServerData(doc, StoreData(d)).1.Repaired?
    ensures RepairServerData(doc, StoreData(d)).1.data.heartBoardMessages == []
    ensures LookupData(RepairServerData(doc, StoreData(d)).0, d.id).value.heartBoardMessages == []
    ensures RepairServerData(doc, StoreData(d)).1.data != d
  {
  }

  /** The repair with the registry read from `heartBoardMessages`, the key every writer uses. */
  function RepairServerDataIntended(doc: SaveData, stored: StoredServerData): (r: (SaveData, DataRepair))
    ensures FalsyId(stored.id) <==> r.1.LeftAsIs?
    ensures r.1.LeftAsIs? ==> r == (doc, LeftAsIs(stored))
    ensures r.1.Repaired? ==>
      && r.1.data.id == stored.id.value
      && (stored.heartBoardMessages.Some? ==> r.1.data.heartBoardMessages == stored.heartBoardMessages.value)
      && (stored.heartBoardMessages.None? ==> r.1.data.heartBoardMessages == [])
      && (stored.chatbotCoreMemory.Some? ==> r.1.data.chatbotCoreMemory == stored.chatbotCoreMemory.value)
      && (stored.chatbotCoreMemory.None? ==> r.1.data.chatbotCoreMemory == "")
      && (stored.chatbotLongtermMemory.Some? ==> r.1.data.chatbotLongtermMemory == stored.chatbotLongtermMemory.value)
      && (stored.chatbotLongtermMemory.None? ==> r.1.data.chatbotLongtermMemory == [])
      && (stored.chatbotShortTermMessages.Some? ==> r.1.data.chatbotShortTermMessages == stored.chatbotShortTermMessages.value)
      && (stored.chatbotShortTermMessages.None? ==> r.1.data.chatbotShortTermMessages == [])
      && LookupData(r.0, stored.id.value) == Some(r.1.data)
      && Without(r.0.servers, DataIdOf, stored.id.value) == Without(doc.servers, DataIdOf, stored.id.value)
      && r.0.grokCoreMemory == doc.grokCoreMemory
  {
    if FalsyId(stored.id) then (doc, LeftAsIs(stored))
    else
      var fixed := ServerData(
        stored.id.value,
        stored.heartBoardMessages.GetOr([]),
        stored.chatbotCoreMemory.GetOr(""),
        stored.chatbotLongtermMemory.GetOr([]),
        stored.chatbotShortTermMessages.GetOr([]));
      (EditServerData(doc, fixed), Repaired(fixed))
  }

  /**
   * The intended repair leaves a well-formed record as it is, and repairing
   * its own output changes nothing further.
   */
  lemma RepairServerDataIntendedKeepsRecord(doc: SaveData, d: ServerData)
    requires d.id != ""
    ensures RepairServerDataIntended(doc, StoreData(d)).1 == Repaired(d)
    ensures var once := RepairServerDataIntended(doc, StoreData(d)).0;
            RepairServerDataIntended(once, StoreData(d)).0 == once
  {
    EditServerDataIdempotent(doc, d);
  }

  /** A config record as found in the file: any top-level field may be missing. */
  datatype StoredServerConfig = StoredServerConfig(
    id: Snowflake,
    aiEnabled: Option<bool>,
    serverResponses: Option<seq<string>>,
    heartBoard: Option<HeartBoardConfig>,
    voicePing: Option<VoicePingConfig>)

  /** How a well-formed configuration looks in the file. */
  function StoreConfig(c: ServerConfig): StoredServerConfig {
    StoredServerConfig(c.id, Some(c.aiEnabled), Some(c.serverResponses), Some(c.heartBoard), Some(c.voicePing))
  }

  /** The configuration `repairServerConfig` builds: present fields kept, missing ones defaulted. */
  function RepairedConfig(stored: StoredServerConfig): (r: ServerConfig)
    ensures r.id == stored.id
    ensures stored.aiEnabled.Some? ==> r.aiEnabled == stored.aiEnabled.value
    ensures stored.aiEnabled.None? ==> !r.aiEnabled
    ensures stored.serverResponses.Some? ==> r.serverResponses == stored.serverResponses.value
    ensures stored.serverResponses.None? ==> r.serverResponses == []
    ensures stored.heartBoard.Some? ==> r.heartBoard == stored.heartBoard.value
    ensures stored.heartBoard.None? ==> r.heartBoard == DefaultHeartboardConfig
    ensures stored.voicePing.Some? ==> r.voicePing == stored.voicePing.value
    ensures stored.voicePing.None? ==> r.voicePing == DefaultVoicepingConfig
  {
    ServerConfig(
      stored.id,
      stored.aiEnabled.GetOr(false),
      stored.serverResponses.GetOr([]),
      stored.heartBoard.GetOr(DefaultHeartboardConfig),
      stored.voicePing.GetOr(DefaultVoicepingConfig))
  }

  /** `repairServerConfig`: build the repaired configuration and write it back. */
  function RepairServerConfig(doc: ConfigData, stored: StoredServerConfig): (r: (ConfigData, ServerConfig))
    ensures r.1 == RepairedConfig(stored)
    ensures GetServerConfig(r.0, stored.id) == Some(r.1)
    ensures Without(r.0.servers, ConfigIdOf, stored.id) == Without(doc.servers, ConfigIdOf, stored.id)
  {
    var fixed := RepairedConfig(stored);
    (EditServerConfig(doc, fixed), fixed)
  }

  /** Repair keeps a well-formed configuration as it is. */
  lemma RepairConfigKeepsWellFormed(c: ServerConfig)
    ensures RepairedConfig(StoreConfig(c)) == c
  {
  }

  /** Repairing twice equals repairing once, for the record and for the document. */
  lemma RepairServerConfigIdempotent(doc: ConfigData, stored: StoredServerConfig)
    ensures var (doc1, c1) := RepairServerConfig(doc, stored);
            RepairServerConfig(doc1, StoreConfig(c1)) == (doc1, c1)
  {
    var (doc1, c1) := RepairServerConfig(doc, stored);
    RepairConfigKeepsWellFormed(c1);
    EditServerConfigIdempotent(doc, c1);
  }
}

=== FILE: heartboard.dfy ===
/**
 * The heartboard reaction handler as a pure transition: from the server's
 * heartboard configuration, its registry of mirrored messages, one reaction
 * event and the answers of the messaging surface, to the new registry and the
 * one effect on the surface (nothing, remove the reaction, send, edit or
 * delete a mirror).
 *
 * Per source message the registry is a two-state machine: Untracked (no entry
 * with that message id) or Tracked (an entry `{channelID, messageID, embedMessageID}`).
 */
module Heartboard {
  import opened Wrappers
  import opened Types
  import opened Lists
  import opened Text
  import opened ReactionTally
  import opened Data

  datatype Attachment = Attachment(contentType: Option<string>, url: string)

  /** The reacted-to message as the handler sees it, including its current reaction cache. */
  datatype SourceMessage = SourceMessage(
    id: Snowflake,
    authorId: Option<Snowflake>,
    url: string,
    content: string,
    attachments: seq<Attachment>,
    reactions: seq<ReactionCount>)

  /** A reaction added (`added`) or removed by user `userId`, with the emoji's text. */
  datatype ReactionEvent = ReactionEvent(added: bool, emoji: string, userId: Snowflake, message: SourceMessage)

  /**
   * The result of fetching the configured output channel (line 181): the
   * fetch rejects, resolves to nothing, or resolves to the channel, which may
   * or may not accept messages. Its id is the configured one.
   */
  datatype OutputChannel = ChannelFetchFails | NoChannel | Channel(sendable: bool)

  /**
   * The messaging surface's answers during one event:
   * - `output`: the configured output channel as fetched;
   * - `mirrorFound`: fetching the registered mirror from that channel yields
   *   a message (a rejected or empty fetch both end the handler, line 228);
   * - `writeSucceeds`: the one write the handler then attempts resolves (the
   *   edit, the delete, or the author's member fetch and the send of a new
   *   mirror); a rejection ends the handler before the registry is touched;
   * - `sentMirrorId`: the id a newly sent mirror receives.
   */
  datatype Surface = Surface(output: OutputChannel, mirrorFound: bool, writeSucceeds: bool, sentMirrorId: Snowflake)

  /** An embed of the mirror: the source text on the first one, and an image. */
  datatype Embed = Embed(description: Option<string>, image: Option<string>)

  datatype Effect =
    | NoEffect
    | RemoveReaction(userId: Snowflake, emoji: string)
    | SendMirror(channelID: Snowflake, content: string, embeds: seq<Embed>)
    /** Replaces the text of the mirror; its embeds are passed back unchanged. */
    | EditMirror(channelID: Snowflake, embedMessageID: Snowflake, content: string)
    | DeleteMirror(channelID: Snowflake, embedMessageID: Snowflake)

  datatype Transition = Transition(registry: seq<HeartBoardMessage>, effect: Effect)

  /** The message is itself some entry's mirror. */
  predicate IsMirror(registry: seq<HeartBoardMessage>, id: Snowflake) {
    exists i :: 0 <= i < |registry| && registry[i].embedMessageID == id
  }

  /** The ignore filter of lines 187-189. */
  predicate Ignored(cfg: HeartBoardConfig, registry: seq<HeartBoardMessage>, ev: ReactionEvent, output: OutputChannel) {
    || !cfg.enabled
    || !output.Channel? || !output.sendable
    || ev.emoji !in cfg.emojis
    || IsMirror(registry, ev.message.id)
  }

  /** The author guard of line 192: the author adds a configured emoji to their own message. */
  predicate AuthorDenied(cfg: HeartBoardConfig, ev: ReactionEvent) {
    cfg.denyAuthor && ev.added && ev.message.authorId == Some(ev.userId) && ev.emoji in cfg.emojis
  }

  /** The position of the message's registry entry, or -1 when it is untracked. */
  function EntryIndex(registry: seq<HeartBoardMessage>, id: Snowflake): int {
    FindKey(registry, MessageIdOf, id)
  }

  /** The mirror's text: the winning emojis, the total in bold, and a link to the source. */
  function MirrorContent(t: TallyResult, url: string): (r: string)
    ensures ContentReadsAs(r, Join(t.reactedEmojis, ""), t.total, url)
  {
    NatToStringRoundTrip(t.total);
    var n := NatToString(t.total);
    var emojis := Join(t.reactedEmojis, "");
    ContentSlices(emojis, n, url);
    emojis + " // **" + n + "**\n" + url
  }

  /**
   * `r` reads as `emojis`, ` // **`, a non-empty run of decimal digits
   * whose value is `total` and which starts with `0` only when it is the
   * single digit `0` for zero, `**` and a newline, then `url`.
   */
  ghost predicate ContentReadsAs(r: string, emojis: string, total: nat, url: string) {
    && |r| >= |emojis| + 6 + 1 + 3 + |url|
    && r[..|emojis|] == emojis && r[|emojis|..|emojis| + 6] == " // **"
    && IsDigits(r[|emojis| + 6..|r| - |url| - 3]) && DigitsValue(r[|emojis| + 6..|r| - |url| - 3]) == total
    && (r[|emojis| + 6] == '0' ==> total == 0 && |r| == |emojis| + 6 + 1 + 3 + |url|)
    && r[|r| - |url| - 3..|r| - |url|] == "**\n" && r[|r| - |url|..] == url
  }

  /** The pieces of the mirror text are read back by slicing. */
  lemma ContentSlices(emojis: string, n: string, url: string)
    requires |n| >= 1 && IsDigits(n) && (n[0] == '0' ==> n == "0" && DigitsValue(n) == 0)
    ensures ContentReadsAs(emojis + " // **" + n + "**\n" + url, emojis, DigitsValue(n), url)
  {
    FivePieces(emojis, " // **", n, "**\n", url);
  }

  /** Each piece of a five-piece concatenation is read back by slicing. */
  lemma FivePieces(a: string, b: string, c: string, d: string, e: string)
    ensures var r := a + b + c + d + e;
      && |r| == |a| + |b| + |c| + |d| + |e|
      && r[..|a|] == a && r[|a|..|a| + |b|] == b && r[|a| + |b|..|r| - |e| - |d|] == c
      && r[|r| - |e| - |d|..|r| - |e|] == d && r[|r| - |e|..] == e
  {
    var r := a + b + c + d + e;
    assert r == (a + b) + c + (d + e);
    assert r[..|a|] == a;
    assert r[|a|..|a| + |b|] == b;
    assert r[|a| + |b|..|r| - |e| - |d|] == c;
    assert r[|r| - |e| - |d|..|r| - |e|] == d;
  }

  predicate IsImage(a: Attachment) {
    a.contentType.Some? && StartsWith(a.contentType.value, "image")
  }

  /** The image attachments, in order. */
  function ImageAttachments(atts: seq<Attachment>): (r: seq<Attachment>)
    ensures |r| <= |atts|
    ensures forall a :: a in r <==> a in atts && IsImage(a)
    ensures (forall i :: 0 <= i < |atts| ==> IsImage(atts[i])) ==> r == atts
  {
    if |atts| == 0 then []
    else (if IsImage(atts[0]) then [atts[0]] else []) + ImageAttachments(atts[1..])
  }

  /** One attachment is kept exactly when it is an image. */
  lemma ImageAttachmentsSingle(a: Attachment)
    ensures ImageAttachments([a]) == if IsImage(a) then [a] else []
  {
    assert [a][1..] == [];
  }

  /** The filter distributes over concatenation, so it keeps the images in their order. */
  lemma {:induction false} ImageAttachmentsConcat(a: seq<Attachment>, b: seq<Attachment>)
    ensures ImageAttachments(a + b) == ImageAttachments(a) + ImageAttachments(b)
  {
    if |a| == 0 {
      assert a + b == b;
    } else {
      assert (a + b)[0] == a[0];
      assert (a + b)[1..] == a[1..] + b;
      ImageAttachmentsConcat(a[1..], b);
    }
  }

  /**
   * The embeds of a new mirror: the first carries the source text (when there
   * is any) and the first image; every further image gets an embed of its own.
   */
  function MirrorEmbeds(msg: SourceMessage): (r: seq<Embed>)
    ensures var images := ImageAttachments(msg.attachments);
      && |r| == (if |images| == 0 then 1 else |images|)
      && r[0].description == (if msg.content == "" then None else Some(msg.content))
      && (|images| == 0 ==> r[0].image == None)
      && (forall i :: 0 <= i < |images| ==> r[i].image == Some(images[i].url))
      && (forall i :: 1 <= i < |r| ==> r[i].description == None)
  {
    var images := ImageAttachments(msg.attachments);
    var main := Embed(if msg.content == "" then None else Some(msg.content),
                      if |images| > 0 then Some(images[0].url) else None);
    [main] + ExtraEmbeds(images)
  }

  /** One image-only embed per image after the first. */
  function ExtraEmbeds(images: seq<Attachment>): (r: seq<Embed>)
    ensures |r| == if |images| == 0 then 0 else |images| - 1
    ensures forall i :: 0 <= i < |r| ==> r[i] == Embed(None, Some(images[i + 1].url))
  {
    if |images| <= 1 then [] else [Embed(None, Some(images[1].url))] + ExtraEmbeds(images[1..])
  }

  /** `reactionFunction` (lines 168-271) once configuration and registry have been read. */
  function Step(cfg: HeartBoardConfig, registry: seq<HeartBoardMessage>, ev: ReactionEvent, surface: Surface): (t: Transition)
    // the ignore filter and the author guard short-circuit without touching the registry
    ensures Ignored(cfg, registry, ev, surface.output) ==> t == Transition(registry, NoEffect)
    ensures !Ignored(cfg, registry, ev, surface.output) && AuthorDenied(cfg, ev) ==>
              t == Transition(registry, RemoveReaction(ev.userId, ev.emoji))
    // only creating or deleting a mirror changes the registry, and only this message's entry
    ensures t.registry != registry ==> t.effect.SendMirror? || t.effect.DeleteMirror?
    ensures Without(t.registry, MessageIdOf, ev.message.id) == Without(registry, MessageIdOf, ev.message.id)
    ensures UniqueKeys(registry, MessageIdOf) ==> UniqueKeys(t.registry, MessageIdOf)
    // the four-way decision
    ensures var total := Tally(cfg, ev.message.reactions).total;
            var i := EntryIndex(registry, ev.message.id);
    // every write goes through the configured output channel, and a new entry records it
      && (t.effect.SendMirror? ==>
            && total >= cfg.thresholdNumber && i == -1 && surface.writeSucceeds
            && t.registry == registry + [HeartBoardMessage(cfg.outputChannel, ev.message.id, surface.sentMirrorId)]
            && t.effect == SendMirror(cfg.outputChannel, MirrorContent(Tally(cfg, ev.message.reactions), ev.message.url), MirrorEmbeds(ev.message)))
      && (t.effect.EditMirror? ==>
            && total >= cfg.thresholdNumber && i != -1 && surface.mirrorFound && surface.writeSucceeds && t.registry == registry
            && t.effect == EditMirror(cfg.outputChannel, registry[i].embedMessageID, MirrorContent(Tally(cfg, ev.message.reactions), ev.message.url)))
      && (t.effect.DeleteMirror? ==>
            && total < cfg.thresholdNumber && i != -1 && surface.mirrorFound && surface.writeSucceeds
            && t.registry == RemoveAt(registry, i)
            && t.effect == DeleteMirror(cfg.outputChannel, registry[i].embedMessageID))
      && (!Ignored(cfg, registry, ev, surface.output) && !AuthorDenied(cfg, ev) ==>
            && (i == -1 && total < cfg.thresholdNumber ==> t == Transition(registry, NoEffect))
            && (i != -1 && !surface.mirrorFound ==> t == Transition(registry, NoEffect))
            && (i == -1 && total >= cfg.thresholdNumber ==>
                  if surface.writeSucceeds then t.effect.SendMirror? else t == Transition(registry, NoEffect))
            && (i != -1 && surface.mirrorFound ==>
                  if !surface.writeSucceeds then t == Transition(registry, NoEffect)
                  else if total >= cfg.thresholdNumber then t.effect.EditMirror? else t.effect.DeleteMirror?))
  {
    if Ignored(cfg, registry, ev, surface.output) then Transition(registry, NoEffect)
    else if AuthorDenied(cfg, ev) then Transition(registry, RemoveReaction(ev.userId, ev.emoji))
    else
      var tally := Tally(cfg, ev.message.reactions);
      var i := EntryIndex(registry, ev.message.id);
      var content := MirrorContent(tally, ev.message.url);
      var out := cfg.outputChannel;
      if tally.total < cfg.thresholdNumber && i == -1 then Transition(registry, NoEffect)
      else if i != -1 then
        var entry := registry[i];
        if !surface.mirrorFound || !surface.writeSucceeds then Transition(registry, NoEffect)
        else if tally.total >= cfg.thresholdNumber then Transition(registry, EditMirror(out, entry.embedMessageID, content))
        else
          WithoutRemoveAt(registry, i, MessageIdOf, ev.message.id);
          RemoveAtKeepsUnique(registry, i);
          Transition(RemoveAt(registry, i), DeleteMirror(out, entry.embedMessageID))
      else if !surface.writeSucceeds then Transition(registry, NoEffect)
      else
        var entry := HeartBoardMessage(out, ev.message.id, surface.sentMirrorId);
        WithoutAppend(registry, entry, MessageIdOf, ev.message.id);
        AppendKeepsUnique(registry, entry);
        Transition(registry + [entry], SendMirror(out, content, MirrorEmbeds(ev.message)))
  }

  /** A rejected write leaves the registry as it was and writes nothing. */
  lemma FailedWriteKeepsRegistry(cfg: HeartBoardConfig, registry: seq<HeartBoardMessage>, ev: ReactionEvent, surface: Surface)
    requires !surface.writeSucceeds
    ensures var t := Step(cfg, registry, ev, surface);
      t.registry == registry && (t.effect.NoEffect? || t.effect.RemoveReaction?)
  {
  }

  /**
   * If every entry records the configured output channel, every entry still
   * does after a step: new mirrors are sent to that channel.
   */
  lemma EntriesKeepConfiguredChannel(cfg: HeartBoardConfig, registry: seq<HeartBoardMessage>, ev: ReactionEvent, surface: Surface)
    requires forall k :: 0 <= k < |registry| ==> registry[k].channelID == cfg.outputChannel
    ensures var r := Step(cfg, registry, ev, surface).registry;
      forall k :: 0 <= k < |r| ==> r[k].channelID == cfg.outputChannel
  {
    var t := Step(cfg, registry, ev, surface);
    if t.effect.DeleteMirror? {
      RemoveAtKeepsChannel(registry, EntryIndex(registry, ev.message.id), cfg.outputChannel);
    }
  }

  lemma RemoveAtKeepsChannel(registry: seq<HeartBoardMessage>, i: nat, channel: Snowflake)
    requires i < |registry|
    requires forall k :: 0 <= k < |registry| ==> registry[k].channelID == channel
    ensures var r := RemoveAt(registry, i);
      forall k :: 0 <= k < |r| ==> r[k].channelID == channel
  {
    var r := RemoveAt(registry, i);
    forall k | 0 <= k < |r| ensures r[k].channelID == channel {
      if k < i { assert r[k] == registry[k]; } else { assert r[k] == registry[k + 1]; }
    }
  }

  lemma RemoveAtKeepsUnique(registry: seq<HeartBoardMessage>, i: nat)
    requires i < |registry|
    ensures UniqueKeys(registry, MessageIdOf) ==> UniqueKeys(RemoveAt(registry, i), MessageIdOf)
  {
    if UniqueKeys(registry, MessageIdOf) {
      RemoveAtUnique(registry, i, MessageIdOf);
    }
  }

  lemma AppendKeepsUnique(registry: seq<HeartBoardMessage>, entry: HeartBoardMessage)
    requires FindKey(registry, MessageIdOf, entry.messageID) == -1
    ensures UniqueKeys(registry, MessageIdOf) ==> UniqueKeys(registry + [entry], MessageIdOf)
  {
  }

  /**
   * Processing the same event again, with the surface answering the same,
   * leaves the registry as the first run left it (given one entry per message).
   */
  lemma StepIdempotent(cfg: HeartBoardConfig, registry: seq<HeartBoardMessage>, ev: ReactionEvent, surface: Surface)
    requires UniqueKeys(registry, MessageIdOf)
    ensures var t := Step(cfg, registry, ev, surface);
            Step(cfg, t.registry, ev, surface).registry == t.registry
  {
    var t := Step(cfg, registry, ev, surface);
    var id := ev.message.id;
    if t.effect.SendMirror? {
      FindKeyAppend(registry, HeartBoardMessage(cfg.outputChannel, id, surface.sentMirrorId), MessageIdOf, id);
      assert EntryIndex(t.registry, id) != -1;
    } else if t.effect.DeleteMirror? {
      RemoveAtUnique(registry, EntryIndex(registry, id), MessageIdOf);
      assert EntryIndex(t.registry, id) == -1;
    }
  }

  /**
   * Once a mirror has been sent for a message, no later event on that message
   * sends another one, whatever the configuration and the surface answer.
   */
  lemma AtMostOneMirror(cfg: HeartBoardConfig, registry: seq<HeartBoardMessage>, ev: ReactionEvent, surface: Surface,
                        cfg': HeartBoardConfig, ev': ReactionEvent, surface': Surface)
    requires ev'.message.id == ev.message.id
    requires Step(cfg, registry, ev, surface).effect.SendMirror?
    ensures !Step(cfg', Step(cfg, registry, ev, surface).registry, ev', surface').effect.SendMirror?
  {
    var id := ev.message.id;
    FindKeyAppend(registry, HeartBoardMessage(cfg.outputChannel, id, surface.sentMirrorId), MessageIdOf, id);
  }

  /**
   * When an event passes the filter and the guard and a registered mirror can
   * be fetched, the message is tracked afterwards exactly when its total
   * reaches the threshold.
   */
  lemma TrackedIffAtThreshold(cfg: HeartBoardConfig, registry: seq<HeartBoardMessage>, ev: ReactionEvent, surface: Surface)
    requires UniqueKeys(registry, MessageIdOf)
    requires !Ignored(cfg, registry, ev, surface.output) && !AuthorDenied(cfg, ev)
    requires EntryIndex(registry, ev.message.id) != -1 ==> surface.mirrorFound
    requires surface.writeSucceeds
    ensures EntryIndex(Step(cfg, registry, ev, surface).registry, ev.message.id) != -1
            <==> Tally(cfg, ev.message.reactions).total >= cfg.thresholdNumber
  {
    var t := Step(cfg, registry, ev, surface);
    var id := ev.message.id;
    if t.effect.SendMirror? {
      FindKeyAppend(registry, HeartBoardMessage(cfg.outputChannel, id, surface.sentMirrorId), MessageIdOf, id);
    } else if t.effect.DeleteMirror? {
      RemoveAtUnique(registry, EntryIndex(registry, id), MessageIdOf);
    }
  }

  /**
   * The transition depends on the event only through the message: an add and
   * a remove, by anyone, of any configured emoji, lead to the same outcome
   * when the author guard does not fire.
   */
  lemma OutcomeDependsOnMessageOnly(cfg: HeartBoardConfig, registry: seq<HeartBoardMessage>, ev1: ReactionEvent, ev2: ReactionEvent, surface: Surface)
    requires ev1.message == ev2.message
    requires ev1.emoji in cfg.emojis && ev2.emoji in cfg.emojis
    requires !AuthorDenied(cfg, ev1) && !AuthorDenied(cfg, ev2)
    ensures Step(cfg, registry, ev1, surface) == Step(cfg, registry, ev2, surface)
  {
  }

  /** The registry after processing `events` in order, the surface answering `surfaces[k]` to `events[k]`. */
  function Replay(cfg: HeartBoardConfig, registry: seq<HeartBoardMessage>, events: seq<ReactionEvent>, surfaces: seq<Surface>): seq<HeartBoardMessage>
    requires |events| == |surfaces|
  {
    if |events| == 0 then registry
    else
      var n := |events| - 1;
      Step(cfg, Replay(cfg, registry, events[..n], surfaces[..n]), events[n], surfaces[n]).registry
  }

  /**
   * Every event of the replay concerns message `id`, passes the filter and
   * the guard, finds its mirror and completes its write.
   */
  ghost predicate Cooperative(cfg: HeartBoardConfig, id: Snowflake, events: seq<ReactionEvent>, surfaces: seq<Surface>)
    requires |events| == |surfaces|
  {
    forall k :: 0 <= k < |events| ==>
      && events[k].message.id == id
      && cfg.enabled && surfaces[k].output.Channel? && surfaces[k].output.sendable
      && events[k].emoji in cfg.emojis && !AuthorDenied(cfg, events[k])
      && surfaces[k].mirrorFound && surfaces[k].writeSucceeds && surfaces[k].sentMirrorId != id
  }

  /** A step never makes `id` a mirror id unless the surface assigns `id` to a new mirror. */
  lemma StepKeepsNotMirror(cfg: HeartBoardConfig, registry: seq<HeartBoardMessage>, ev: ReactionEvent, surface: Surface, id: Snowflake)
    requires !IsMirror(registry, id) && surface.sentMirrorId != id
    ensures !IsMirror(Step(cfg, registry, ev, surface).registry, id)
  {
    var t := Step(cfg, registry, ev, surface);
    if t.effect.DeleteMirror? {
      var i := EntryIndex(registry, ev.message.id);
      forall j | 0 <= j < |t.registry|
        ensures t.registry[j].embedMessageID != id
      {
        if j < i { assert t.registry[j] == registry[j]; } else { assert t.registry[j] == registry[j + 1]; }
      }
    } else if t.effect.SendMirror? {
      forall j | 0 <= j < |t.registry|
        ensures t.registry[j].embedMessageID != id
      {
        if j < |registry| { assert t.registry[j] == registry[j]; }
      }
    }
  }

  lemma {:induction false} ReplayInvariant(cfg: HeartBoardConfig, registry: seq<HeartBoardMessage>, id: Snowflake,
                                           events: seq<ReactionEvent>, surfaces: seq<Surface>)
    requires |events| == |surfaces| && Cooperative(cfg, id, events, surfaces)
    requires UniqueKeys(registry, MessageIdOf) && !IsMirror(registry, id)
    ensures var r := Replay(cfg, registry, events, surfaces);
      && UniqueKeys(r, MessageIdOf) && !IsMirror(r, id)
      && Without(r, MessageIdOf, id) == Without(registry, MessageIdOf, id)
  {
    if |events| > 0 {
      var n := |events| - 1;
      CooperativePrefix(cfg, id, events, surfaces);
      ReplayInvariant(cfg, registry, id, events[..n], surfaces[..n]);
      ReplayStepFrame(cfg, Replay(cfg, registry, events[..n], surfaces[..n]), id, events[n], surfaces[n]);
    }
  }

  /** Dropping the last event of a cooperative replay leaves a cooperative replay. */
  lemma CooperativePrefix(cfg: HeartBoardConfig, id: Snowflake, events: seq<ReactionEvent>, surfaces: seq<Surface>)
    requires |events| == |surfaces| > 0 && Cooperative(cfg, id, events, surfaces)
    ensures Cooperative(cfg, id, events[..|events| - 1], surfaces[..|events| - 1])
  {
    var n := |events| - 1;
    forall k | 0 <= k < n ensures events[..n][k] == events[k] && surfaces[..n][k] == surfaces[k] { }
  }

  /** One step on message `id` keeps entries unique, `id` no mirror, and the other entries as they were. */
  lemma ReplayStepFrame(cfg: HeartBoardConfig, before: seq<HeartBoardMessage>, id: Snowflake, ev: ReactionEvent, surface: Surface)
    requires UniqueKeys(before, MessageIdOf) && !IsMirror(before, id)
    requires ev.message.id == id && surface.sentMirrorId != id
    ensures var after := Step(cfg, before, ev, surface).registry;
      && UniqueKeys(after, MessageIdOf) && !IsMirror(after, id)
      && Without(after, MessageIdOf, id) == Without(before, MessageIdOf, id)
  {
    StepKeepsNotMirror(cfg, before, ev, surface, id);
  }

  /**
   * Replaying any non-empty run of events on one message converges: the
   * message ends up tracked exactly when the last event's reaction state
   * reaches the threshold (ReplayInvariant adds that entries stay one per
   * message and every other entry is as it was).
   */
  lemma ReplayConverges(cfg: HeartBoardConfig, registry: seq<HeartBoardMessage>, id: Snowflake,
                        events: seq<ReactionEvent>, surfaces: seq<Surface>)
    requires |events| == |surfaces| > 0 && Cooperative(cfg, id, events, surfaces)
    requires UniqueKeys(registry, MessageIdOf) && !IsMirror(registry, id)
    ensures EntryIndex(Replay(cfg, registry, events, surfaces), id) != -1
            <==> Tally(cfg, events[|events| - 1].message.reactions).total >= cfg.thresholdNumber
  {
    var n := |events| - 1;
    CooperativePrefix(cfg, id, events, surfaces);
    ReplayInvariant(cfg, registry, id, events[..n], surfaces[..n]);
    LastStepTracked(cfg, Replay(cfg, registry, events[..n], surfaces[..n]), id, events[n], surfaces[n]);
  }

  /** The last step of a cooperative replay decides tracking by the threshold. */
  lemma LastStepTracked(cfg: HeartBoardConfig, before: seq<HeartBoardMessage>, id: Snowflake, ev: ReactionEvent, surface: Surface)
    requires UniqueKeys(before, MessageIdOf) && !IsMirror(before, id)
    requires ev.message.id == id
    requires cfg.enabled && surface.output.Channel? && surface.output.sendable
    requires ev.emoji in cfg.emojis && !AuthorDenied(cfg, ev) && surface.mirrorFound && surface.writeSucceeds
    ensures EntryIndex(Step(cfg, before, ev, surface).registry, id) != -1
            <==> Tally(cfg, ev.message.reactions).total >= cfg.thresholdNumber
  {
    TrackedIffAtThreshold(cfg, before, ev, surface);
  }

  /** Both persisted documents. */
  datatype Documents = Documents(config: ConfigData, data: SaveData)

  datatype Handled = Handled(docs: Documents, effect: Effect)

  /** `getServerConfig(id) ?? addConfig(id)`: the stored configuration, or the default one, persisted. */
  function ConfigFor(config: ConfigData, guildID: Snowflake): (r: (ConfigData, ServerConfig))
    ensures r == AddConfig(config, guildID)
    ensures r.1 == GetServerConfig(config, guildID).GetOr(DefaultServerConfig(guildID))
  {
    var found := GetServerConfig(config, guildID);
    if found.Some? then (config, found.value) else AddConfig(config, guildID)
  }

  /**
   * Lines 183-270 of the handler: the server's data record is looked up
   * (created if missing), the transition is computed on its registry, and the
   * record is written back only when a mirror was sent or deleted.
   */
  function HandleOnData(data: SaveData, id: Snowflake, cfg: HeartBoardConfig, ev: ReactionEvent, surface: Surface): (r: (SaveData, Effect))
    ensures var record := LookupData(data, id).GetOr(EmptyServerData(id));
            var t := Step(cfg, record.heartBoardMessages, ev, surface);
      && r.1 == t.effect
      && LookupData(r.0, id) == Some(record.(heartBoardMessages := t.registry))
      && Without(r.0.servers, DataIdOf, id) == Without(data.servers, DataIdOf, id)
      && r.0.grokCoreMemory == data.grokCoreMemory
      && (UniqueKeys(record.heartBoardMessages, MessageIdOf) ==> UniqueKeys(t.registry, MessageIdOf))
  {
    var (data', record) := GetServerData(data, id);
    DataAfterRead(data, id);
    var t := Step(cfg, record.heartBoardMessages, ev, surface);
    if t.effect.SendMirror? || t.effect.DeleteMirror? then
      var record' := record.(heartBoardMessages := t.registry);
      DataAfterWrite(data', record');
      (EditServerData(data', record'), t.effect)
    else
      assert record.(heartBoardMessages := t.registry) == record;
      (data', t.effect)
  }

  /** Reading a server's record keeps every other record and the shared memory. */
  lemma DataAfterRead(data: SaveData, id: Snowflake)
    ensures var (data', record) := GetServerData(data, id);
      && record == LookupData(data, id).GetOr(EmptyServerData(id))
      && LookupData(data', id) == Some(record)
      && Without(data'.servers, DataIdOf, id) == Without(data.servers, DataIdOf, id)
      && data'.grokCoreMemory == data.grokCoreMemory
  {
    WithoutAppend(data.servers, EmptyServerData(id), DataIdOf, id);
  }

  /** Writing a server's record back keeps every other record and the shared memory. */
  lemma DataAfterWrite(data: SaveData, record: ServerData)
    ensures var data' := EditServerData(data, record);
      && LookupData(data', record.id) == Some(record)
      && Without(data'.servers, DataIdOf, record.id) == Without(data.servers, DataIdOf, record.id)
      && data'.grokCoreMemory == data.grokCoreMemory
  {
  }

  /**
   * The whole reaction handler over the documents: messages outside a server
   * are ignored; otherwise the server's configuration is looked up (created
   * with defaults if missing); a rejected output-channel fetch ends the
   * handler there, before the data record is read; otherwise the data record
   * is handled as in `HandleOnData`.
   */
  function HandleReaction(docs: Documents, guild: Option<Snowflake>, ev: ReactionEvent, surface: Surface): (h: Handled)
    ensures guild.None? ==> h == Handled(docs, NoEffect)
    ensures guild.Some? && GetServerConfig(docs.config, guild.value).Some? ==> h.docs.config == docs.config
    ensures guild.Some? ==>
      && h.docs.config == AddConfig(docs.config, guild.value).0
      && GetServerConfig(h.docs.config, guild.value).Some?
      && Without(h.docs.config.servers, ConfigIdOf, guild.value) == Without(docs.config.servers, ConfigIdOf, guild.value)
    ensures guild.Some? && surface.output.ChannelFetchFails? ==> h.docs.data == docs.data && h.effect == NoEffect
    ensures guild.Some? && !surface.output.ChannelFetchFails? ==>
      var id := guild.value;
      var cfg := GetServerConfig(docs.config, id).GetOr(DefaultServerConfig(id)).heartBoard;
      var record := LookupData(docs.data, id).GetOr(EmptyServerData(id));
      var t := Step(cfg, record.heartBoardMessages, ev, surface);
      && h.effect == t.effect
      && LookupData(h.docs.data, id) == Some(record.(heartBoardMessages := t.registry))
      && Without(h.docs.data.servers, DataIdOf, id) == Without(docs.data.servers, DataIdOf, id)
      && h.docs.data.grokCoreMemory == docs.data.grokCoreMemory
      && (UniqueKeys(record.heartBoardMessages, MessageIdOf) ==> UniqueKeys(t.registry, MessageIdOf))
  {
    if guild.None? then Handled(docs, NoEffect)
    else
      var id := guild.value;
      var (config', serverConfig) := ConfigFor(docs.config, id);
      WithoutAppend(docs.config.servers, DefaultServerConfig(id), ConfigIdOf, id);
      if surface.output.ChannelFetchFails? then Handled(Documents(config', docs.data), NoEffect)
      else
        var (data', effect) := HandleOnData(docs.data, id, serverConfig.heartBoard, ev, surface);
        Handled(Documents(config', data'), effect)
  }
}

=== FILE: legacy.dfy ===
/**
 * The earlier `/voiceping` command, which works on a single config document
 * whose records hold only a server id and its voice-ping settings. It looks
 * the invoking server up, and a settings edit writes the changed record back
 * at the server's index and returns the whole document for the caller to
 * persist.
 */
module LegacyCommands {
  import opened Wrappers
  import opened Types
  import opened Lists
  import opened Commands

  datatype LegacyServer = LegacyServer(id: Snowflake, voicePing: VoicePingConfig)

  datatype LegacyConfig = LegacyConfig(servers: seq<LegacyServer>)

  function LegacyIdOf(s: LegacyServer): Snowflake { s.id }

  /**
   * The legacy replies. The settings embed of view and edit shows the
   * server's voice-ping settings (as stored for view, as merged for edit).
   */
  datatype LegacyReply = Missing | LegacyTested(outcome: TestOutcome) | SettingsEmbed(shown: VoicePingConfig) | Silent

  /** The index of the invoking server, or -1; outside a server nothing matches. */
  function ServerIndex(config: LegacyConfig, guild: Option<Snowflake>): (r: int)
    ensures -1 <= r < |config.servers|
    ensures r == -1 <==> guild.None? || forall i :: 0 <= i < |config.servers| ==> config.servers[i].id != guild.value
    ensures r != -1 ==> config.servers[r].id == guild.value
                        && forall i :: 0 <= i < r ==> config.servers[i].id != guild.value
  {
    if guild.None? then -1 else FindKey(config.servers, LegacyIdOf, guild.value)
  }

  /**
   * The legacy `/voiceping`: nothing happens without a document or a matching
   * server; test behaves as in the current command; a settings edit merges
   * the options into the matching record, writes it back at its index and
   * returns the document; view and test return no document.
   */
  function LegacyExecute(config: Option<LegacyConfig>, guild: Option<Snowflake>, req: VoicePingRequest, ctx: TestContext): (r: (Option<LegacyConfig>, LegacyReply))
    ensures config.None? || ServerIndex(config.value, guild) == -1 ==> r == (None, Missing)
    ensures r.0.Some? <==> config.Some? && ServerIndex(config.value, guild) != -1 && req.SettingsEdit?
    ensures r.0.Some? ==>
      var before := config.value.servers;
      var i := ServerIndex(config.value, guild);
      && |r.0.value.servers| == |before|
      && r.0.value.servers[i] == before[i].(voicePing := MergeVoicePing(before[i].voicePing, req.options))
      && (forall k :: 0 <= k < |before| && k != i ==> r.0.value.servers[k] == before[k])
      && r.1 == SettingsEmbed(r.0.value.servers[i].voicePing)
    ensures config.Some? && ServerIndex(config.value, guild) != -1 && req.SettingsView? ==>
      r == (None, SettingsEmbed(config.value.servers[ServerIndex(config.value, guild)].voicePing))
    ensures config.Some? && ServerIndex(config.value, guild) != -1 && req.VoiceTest? ==>
      r.1 == LegacyTested(VoicePingTest(config.value.servers[ServerIndex(config.value, guild)].voicePing, ctx))
  {
    if config.None? then (None, Missing)
    else
      var i := ServerIndex(config.value, guild);
      if i == -1 then (None, Missing)
      else
        var server := config.value.servers[i];
        match req
        case VoiceTest => (None, LegacyTested(VoicePingTest(server.voicePing, ctx)))
        case SettingsView => (None, SettingsEmbed(server.voicePing))
        case SettingsEdit(o) =>
          var updated := server.(voicePing := MergeVoicePing(server.voicePing, o));
          (Some(LegacyConfig(config.value.servers[i := updated])), SettingsEmbed(updated.voicePing))
        case OutsideSettingsGroup => (None, Silent)
  }

  /**
   * Editing is idempotent: running the same edit on the returned document
   * returns that document again, and the server is still found at the same
   * index.
   */
  lemma LegacyEditIdempotent(config: LegacyConfig, guild: Option<Snowflake>, o: VoicePingEditOptions, ctx: TestContext)
    requires ServerIndex(config, guild) != -1
    ensures var once := LegacyExecute(Some(config), guild, SettingsEdit(o), ctx).0.value;
      && ServerIndex(once, guild) == ServerIndex(config, guild)
      && LegacyExecute(Some(once), guild, SettingsEdit(o), ctx).0 == Some(once)
  {
    var i := ServerIndex(config, guild);
    var once := LegacyExecute(Some(config), guild, SettingsEdit(o), ctx).0.value;
    assert forall k :: 0 <= k < i ==> once.servers[k] == config.servers[k];
    assert once.servers[i].id == guild.value;
    assert ServerIndex(once, guild) == i;
    MergeVoicePingIdempotent(config.servers[i].voicePing, o);
    assert once.servers[i := once.servers[i].(voicePing := MergeVoicePing(once.servers[i].voicePing, o))] == once.servers;
  }
}

=== FILE: lists.dfy ===
/**
 * Generic operations over sequences of records identified by a key, as used
 * for the server lists of the stored documents and for the heartboard registry:
 * `find`/`findIndex` by key, replace-or-append, `splice(i, 1)` and filtering.
 */
module Lists {

  /** `findIndex(e => key(e) === k)`: the first index whose key is `k`, or -1. */
  function FindKey<T, K(==)>(s: seq<T>, key: T -> K, k: K): (r: int)
    ensures -1 <= r < |s|
    ensures r == -1 <==> forall i :: 0 <= i < |s| ==> key(s[i]) != k
    ensures 0 <= r ==> key(s[r]) == k && forall i :: 0 <= i < r ==> key(s[i]) != k
  {
    if |s| == 0 then -1
    else if key(s[0]) == k then 0
    else
      var j := FindKey(s[1..], key, k);
      if j == -1 then -1 else j + 1
  }

  /** Searching a sequence extended at the end finds an earlier match first. */
  lemma FindKeyAppend<T, K>(s: seq<T>, x: T, key: T -> K, k: K)
    ensures FindKey(s + [x], key, k) ==
            (if FindKey(s, key, k) != -1 then FindKey(s, key, k)
             else if key(x) == k then |s| else -1)
  {
    var r := FindKey(s + [x], key, k);
    var i := FindKey(s, key, k);
    assert forall j :: 0 <= j < |s| ==> (s + [x])[j] == s[j];
    if i != -1 {
      assert key((s + [x])[i]) == k;
    } else if key(x) == k {
      assert key((s + [x])[|s|]) == k;
    }
  }

  /** No two elements share a key. */
  ghost predicate UniqueKeys<T, K>(s: seq<T>, key: T -> K) {
    forall i, j :: 0 <= i < j < |s| ==> key(s[i]) != key(s[j])
  }

  /**
   * Replace the first element whose key is `key(x)` by `x`, or append `x`
   * when there is none (`editServerData`/`editServerConfig`).
   */
  function Upsert<T, K(==)>(s: seq<T>, key: T -> K, x: T): (r: seq<T>)
    ensures |r| == if FindKey(s, key, key(x)) == -1 then |s| + 1 else |s|
    ensures FindKey(r, key, key(x)) != -1 && r[FindKey(r, key, key(x))] == x
    ensures FindKey(s, key, key(x)) != -1 ==> r[FindKey(s, key, key(x))] == x
    ensures forall j :: 0 <= j < |s| && j != FindKey(s, key, key(x)) ==> r[j] == s[j]
  {
    var i := FindKey(s, key, key(x));
    if i == -1 then
      FindKeyAppend(s, x, key, key(x));
      s + [x]
    else
      var r := s[i := x];
      assert forall j :: 0 <= j < i ==> r[j] == s[j];
      assert key(r[i]) == key(x);
      assert FindKey(r, key, key(x)) == i;
      r
  }

  /** Upserting the same record twice is the same as upserting it once. */
  lemma UpsertIdempotent<T, K>(s: seq<T>, key: T -> K, x: T)
    ensures Upsert(Upsert(s, key, x), key, x) == Upsert(s, key, x)
  {
    var r := Upsert(s, key, x);
    var i := FindKey(s, key, key(x));
    var i' := FindKey(r, key, key(x));
    if i == -1 {
      assert i' == |s| by {
        FindKeyAppend(s, x, key, key(x));
      }
    } else {
      assert forall j :: 0 <= j < i ==> r[j] == s[j];
      assert key(r[i]) == key(x);
      assert i' == i;
    }
  }

  /**
   * Find-or-append: the first element with key `k` and the unchanged sequence,
   * or `initial` appended (`addData`/`addConfig`).
   */
  function FindOrAppend<T, K(==)>(s: seq<T>, key: T -> K, k: K, initial: T): (r: (seq<T>, T))
    requires key(initial) == k
    ensures key(r.1) == k
    ensures FindKey(r.0, key, k) != -1 && r.0[FindKey(r.0, key, k)] == r.1
    ensures FindKey(s, key, k) != -1 ==> r.0 == s
    ensures FindKey(s, key, k) == -1 ==> r.0 == s + [initial] && r.1 == initial
  {
    var i := FindKey(s, key, k);
    if i != -1 then (s, s[i])
    else
      FindKeyAppend(s, initial, key, k);
      (s + [initial], initial)
  }

  /** `splice(i, 1)`: drop the element at index `i`. */
  function RemoveAt<T>(s: seq<T>, i: nat): (r: seq<T>)
    requires i < |s|
    ensures |r| == |s| - 1
    ensures forall j :: 0 <= j < i ==> r[j] == s[j]
    ensures forall j :: i <= j < |r| ==> r[j] == s[j + 1]
  {
    s[..i] + s[i + 1..]
  }

  /** The elements whose key differs from `k`, in their original order. */
  function Without<T, K(==)>(s: seq<T>, key: T -> K, k: K): (r: seq<T>)
    ensures |r| <= |s|
    ensures forall i :: 0 <= i < |r| ==> r[i] in s && key(r[i]) != k
    ensures forall i :: 0 <= i < |s| && key(s[i]) != k ==> s[i] in r
  {
    if |s| == 0 then []
    else (if key(s[0]) != k then [s[0]] else []) + Without(s[1..], key, k)
  }

  lemma WithoutConcat<T, K>(a: seq<T>, b: seq<T>, key: T -> K, k: K)
    ensures Without(a + b, key, k) == Without(a, key, k) + Without(b, key, k)
  {
    if |a| == 0 {
      assert a + b == b;
    } else {
      assert (a + b)[1..] == a[1..] + b;
      WithoutConcat(a[1..], b, key, k);
    }
  }

  /** Removing an element whose key is `k` leaves the other elements and their order alone. */
  lemma WithoutRemoveAt<T, K>(s: seq<T>, i: nat, key: T -> K, k: K)
    requires i < |s| && key(s[i]) == k
    ensures Without(RemoveAt(s, i), key, k) == Without(s, key, k)
  {
    if i == 0 {
      assert RemoveAt(s, i) == s[1..];
    } else {
      assert RemoveAt(s, i) == [s[0]] + RemoveAt(s[1..], i - 1);
      assert ([s[0]] + RemoveAt(s[1..], i - 1))[1..] == RemoveAt(s[1..], i - 1);
      WithoutRemoveAt(s[1..], i - 1, key, k);
    }
  }

  /** Appending an element whose key is `k` leaves the other elements and their order alone. */
  lemma WithoutAppend<T, K>(s: seq<T>, x: T, key: T -> K, k: K)
    requires key(x) == k
    ensures Without(s + [x], key, k) == Without(s, key, k)
  {
    WithoutConcat(s, [x], key, k);
    assert Without([x], key, k) == [];
  }

  /** An upsert of `x` changes nothing among the elements with a key other than `key(x)`. */
  lemma WithoutUpsert<T, K>(s: seq<T>, key: T -> K, x: T)
    ensures Without(Upsert(s, key, x), key, key(x)) == Without(s, key, key(x))
  {
    var i := FindKey(s, key, key(x));
    if i == -1 {
      WithoutAppend(s, x, key, key(x));
    } else {
      var r := Upsert(s, key, x);
      assert r == s[..i] + [x] + s[i + 1..];
      assert s == s[..i] + [s[i]] + s[i + 1..];
      WithoutConcat(s[..i] + [x], s[i + 1..], key, key(x));
      WithoutConcat(s[..i], [x], key, key(x));
      WithoutConcat(s[..i] + [s[i]], s[i + 1..], key, key(x));
      WithoutConcat(s[..i], [s[i]], key, key(x));
      assert Without([x], key, key(x)) == [];
      assert Without([s[i]], key, key(x)) == [];
    }
  }

  /** Removing from a sequence with unique keys leaves no element with the removed key. */
  lemma RemoveAtUnique<T, K>(s: seq<T>, i: nat, key: T -> K)
    requires i < |s| && UniqueKeys(s, key)
    ensures UniqueKeys(RemoveAt(s, i), key)
    ensures FindKey(RemoveAt(s, i), key, key(s[i])) == -1
  {
    var r := RemoveAt(s, i);
    forall j | 0 <= j < |r|
      ensures key(r[j]) != key(s[i])
    {
      if j < i { assert r[j] == s[j]; } else { assert r[j] == s[j + 1]; }
    }
  }
}

=== FILE: tally.dfy ===
/**
 * The heartboard tally policy: from a message's reaction counts and the
 * server's heartboard configuration, the trigger total and the emojis shown
 * on the mirror. Cumulative mode adds up every configured emoji; single mode
 * reports the largest count among the configured emojis that individually
 * reach the threshold.
 */
module ReactionTally {
  import opened Types
  import opened Lists

  /** One entry of a message's reaction cache: the emoji's text and its count. */
  datatype ReactionCount = ReactionCount(emoji: string, count: nat)

  /** `total` and `reactedEmojis` as the handler computes them. */
  datatype TallyResult = TallyResult(total: nat, reactedEmojis: seq<string>)

  function CountOf(r: ReactionCount): nat { r.count }

  /** The reactions whose emoji text is one of `emojis` (exact string equality), in input order. */
  function Relevant(emojis: seq<string>, rs: seq<ReactionCount>): (r: seq<ReactionCount>)
    ensures |r| <= |rs|
    ensures forall i :: 0 <= i < |r| ==> r[i].emoji in emojis
  {
    if |rs| == 0 then []
    else
      var last := rs[|rs| - 1];
      Relevant(emojis, rs[..|rs| - 1]) + (if last.emoji in emojis then [last] else [])
  }

  /** The reactions with at least `threshold` votes, in input order. */
  function AtLeast(rs: seq<ReactionCount>, threshold: int): (r: seq<ReactionCount>)
    ensures |r| <= |rs|
    ensures forall i :: 0 <= i < |r| ==> r[i].count >= threshold
  {
    if |rs| == 0 then []
    else
      var last := rs[|rs| - 1];
      AtLeast(rs[..|rs| - 1], threshold) + (if last.count >= threshold then [last] else [])
  }

  function SumCounts(rs: seq<ReactionCount>): nat {
    if |rs| == 0 then 0 else SumCounts(rs[..|rs| - 1]) + rs[|rs| - 1].count
  }

  function EmojisOf(rs: seq<ReactionCount>): (r: seq<string>)
    ensures |r| == |rs|
    ensures forall i :: 0 <= i < |rs| ==> r[i] == rs[i].emoji
  {
    if |rs| == 0 then []
    else
      assert forall i :: 0 <= i < |rs| - 1 ==> rs[i] == rs[..|rs| - 1][i];
      EmojisOf(rs[..|rs| - 1]) + [rs[|rs| - 1].emoji]
  }

  /** `Math.max(...counts)` over a non-empty sequence. */
  function MaxCount(rs: seq<ReactionCount>): (m: nat)
    requires |rs| > 0
    ensures forall i :: 0 <= i < |rs| ==> rs[i].count <= m
    ensures FindKey(rs, CountOf, m) != -1
  {
    var last := rs[|rs| - 1];
    if |rs| == 1 then
      assert CountOf(rs[0]) == last.count;
      last.count
    else
      var prefix := rs[..|rs| - 1];
      var m := MaxCount(prefix);
      assert rs == prefix + [last];
      if m >= last.count then
        FindKeyAppend(prefix, last, CountOf, m);
        m
      else
        FindKeyAppend(prefix, last, CountOf, last.count);
        last.count
  }

  /** A reaction that counts towards the heartboard in single mode. */
  predicate Qualifies(cfg: HeartBoardConfig, x: ReactionCount) {
    x.emoji in cfg.emojis && x.count >= cfg.thresholdNumber
  }

  /** The tally of lines 197-215 of the reaction handler. */
  function Tally(cfg: HeartBoardConfig, rs: seq<ReactionCount>): (t: TallyResult)
    ensures forall i :: 0 <= i < |t.reactedEmojis| ==> t.reactedEmojis[i] in cfg.emojis
    ensures cfg.cumulative ==> |t.reactedEmojis| == |Relevant(cfg.emojis, rs)|
    ensures !cfg.cumulative ==> |t.reactedEmojis| <= 1
    ensures !cfg.cumulative ==> t.total == 0 || t.total >= cfg.thresholdNumber
    ensures !cfg.cumulative && t.reactedEmojis == [] ==> t.total == 0
  {
    var relevant := Relevant(cfg.emojis, rs);
    if cfg.cumulative then TallyResult(SumCounts(relevant), EmojisOf(relevant))
    else
      var votes := AtLeast(relevant, cfg.thresholdNumber);
      AtLeastKeepsEmojis(relevant, cfg.thresholdNumber, cfg.emojis);
      if |votes| == 0 then TallyResult(0, [])
      else
        var total := MaxCount(votes);
        var largest := votes[FindKey(votes, CountOf, total)];
        assert votes[0].count <= total;
        TallyResult(total, [largest.emoji])
  }

  lemma {:induction false} AtLeastKeepsEmojis(rs: seq<ReactionCount>, threshold: int, emojis: seq<string>)
    requires forall i :: 0 <= i < |rs| ==> rs[i].emoji in emojis
    ensures forall i :: 0 <= i < |AtLeast(rs, threshold)| ==> AtLeast(rs, threshold)[i].emoji in emojis
    decreases |rs|
  {
    if |rs| > 0 {
      AtLeastKeepsEmojis(rs[..|rs| - 1], threshold, emojis);
    }
  }

  lemma MaxCountSnoc(rs: seq<ReactionCount>, x: ReactionCount)
    ensures MaxCount(rs + [x]) == if |rs| == 0 then x.count else if MaxCount(rs) >= x.count then MaxCount(rs) else x.count
  {
    assert (rs + [x])[..|rs|] == rs;
  }

  lemma RelevantSnoc(emojis: seq<string>, rs: seq<ReactionCount>, x: ReactionCount)
    ensures Relevant(emojis, rs + [x]) == Relevant(emojis, rs) + (if x.emoji in emojis then [x] else [])
  {
    assert (rs + [x])[..|rs|] == rs;
  }

  lemma AtLeastSnoc(rs: seq<ReactionCount>, x: ReactionCount, threshold: int)
    ensures AtLeast(rs + [x], threshold) == AtLeast(rs, threshold) + (if x.count >= threshold then [x] else [])
  {
    assert (rs + [x])[..|rs|] == rs;
  }

  lemma {:induction false} RelevantConcat(emojis: seq<string>, a: seq<ReactionCount>, b: seq<ReactionCount>)
    ensures Relevant(emojis, a + b) == Relevant(emojis, a) + Relevant(emojis, b)
    decreases |b|
  {
    if |b| == 0 {
      assert a + b == a;
    } else {
      var b' := b[..|b| - 1];
      var x := b[|b| - 1];
      assert a + b == (a + b') + [x];
      assert b == b' + [x];
      RelevantSnoc(emojis, a + b', x);
      RelevantSnoc(emojis, b', x);
      RelevantConcat(emojis, a, b');
    }
  }

  lemma {:induction false} SumCountsConcat(a: seq<ReactionCount>, b: seq<ReactionCount>)
    ensures SumCounts(a + b) == SumCounts(a) + SumCounts(b)
    decreases |b|
  {
    if |b| == 0 {
      assert a + b == a;
    } else {
      var b' := b[..|b| - 1];
      assert (a + b)[..|a + b| - 1] == a + b';
      SumCountsConcat(a, b');
    }
  }

  /** Filtering twice by the same emoji list filters nothing more. */
  lemma {:induction false} RelevantIdempotent(emojis: seq<string>, rs: seq<ReactionCount>)
    ensures Relevant(emojis, Relevant(emojis, rs)) == Relevant(emojis, rs)
    decreases |rs|
  {
    if |rs| > 0 {
      var prefix := rs[..|rs| - 1];
      var x := rs[|rs| - 1];
      var tail := if x.emoji in emojis then [x] else [];
      assert Relevant(emojis, rs) == Relevant(emojis, prefix) + tail;
      RelevantIdempotent(emojis, prefix);
      RelevantConcat(emojis, Relevant(emojis, prefix), tail);
      if x.emoji in emojis {
        RelevantSingle(emojis, x);
      }
    }
  }

  lemma RelevantSingle(emojis: seq<string>, x: ReactionCount)
    requires x.emoji in emojis
    ensures Relevant(emojis, [x]) == [x]
  {
    assert [x][..0] == [];
  }

  /** Reactions on emojis outside the configured list never influence the tally. */
  lemma TallyIgnoresOtherEmojis(cfg: HeartBoardConfig, rs: seq<ReactionCount>)
    ensures Tally(cfg, rs) == Tally(cfg, Relevant(cfg.emojis, rs))
  {
    RelevantIdempotent(cfg.emojis, rs);
  }

  /** A single reaction's cumulative tally: its count and emoji when configured, nothing otherwise. */
  lemma CumulativeSingle(cfg: HeartBoardConfig, x: ReactionCount)
    requires cfg.cumulative
    ensures Tally(cfg, [x]) == if x.emoji in cfg.emojis then TallyResult(x.count, [x.emoji]) else TallyResult(0, [])
  {
    RelevantSnoc(cfg.emojis, [], x);
    assert [] + [x] == [x];
    if x.emoji in cfg.emojis {
      assert SumCounts([x]) == SumCounts([x][..0]) + x.count;
    }
  }

  /**
   * The cumulative tally is additive: the tally of two runs of reactions is
   * the sum of their totals and the concatenation of their emoji lists.
   */
  lemma CumulativeConcat(cfg: HeartBoardConfig, a: seq<ReactionCount>, b: seq<ReactionCount>)
    requires cfg.cumulative
    ensures Tally(cfg, a + b).total == Tally(cfg, a).total + Tally(cfg, b).total
    ensures Tally(cfg, a + b).reactedEmojis == Tally(cfg, a).reactedEmojis + Tally(cfg, b).reactedEmojis
  {
    RelevantConcat(cfg.emojis, a, b);
    var ra := Relevant(cfg.emojis, a);
    var rb := Relevant(cfg.emojis, b);
    SumCountsConcat(ra, rb);
    assert EmojisOf(ra + rb) == EmojisOf(ra) + EmojisOf(rb);
  }

  /** The single-mode candidates of a run of reactions extended by one more. */
  function Votes(cfg: HeartBoardConfig, rs: seq<ReactionCount>): seq<ReactionCount> {
    AtLeast(Relevant(cfg.emojis, rs), cfg.thresholdNumber)
  }

  lemma VotesSnoc(cfg: HeartBoardConfig, rs: seq<ReactionCount>, x: ReactionCount)
    ensures Votes(cfg, rs + [x]) == Votes(cfg, rs) + (if Qualifies(cfg, x) then [x] else [])
  {
    var r0 := Relevant(cfg.emojis, rs);
    RelevantSnoc(cfg.emojis, rs, x);
    if x.emoji in cfg.emojis {
      AtLeastSnoc(r0, x, cfg.thresholdNumber);
      if !Qualifies(cfg, x) {
        assert AtLeast(r0, cfg.thresholdNumber) + [] == AtLeast(r0, cfg.thresholdNumber);
      }
    } else {
      assert r0 + [] == r0;
      assert Votes(cfg, rs) + [] == Votes(cfg, rs);
    }
  }

  /** The single-mode tally read off its candidates. */
  lemma TallyFromVotes(cfg: HeartBoardConfig, rs: seq<ReactionCount>)
    requires !cfg.cumulative
    ensures var votes := Votes(cfg, rs);
      Tally(cfg, rs) == if |votes| == 0 then TallyResult(0, [])
                        else TallyResult(MaxCount(votes), [votes[FindKey(votes, CountOf, MaxCount(votes))].emoji])
  {
  }

  /** The running maximum of the one-pass loop: found, its count and the first emoji with it. */
  ghost predicate BestOf(votes: seq<ReactionCount>, found: bool, best: nat, bestEmoji: string) {
    && (found <==> |votes| > 0)
    && (found ==> best == MaxCount(votes) && bestEmoji == votes[FindKey(votes, CountOf, best)].emoji)
  }

  lemma BestOfSnoc(votes: seq<ReactionCount>, x: ReactionCount, found: bool, best: nat, bestEmoji: string)
    requires BestOf(votes, found, best, bestEmoji)
    ensures !found || x.count > best ==> BestOf(votes + [x], true, x.count, x.emoji)
    ensures found && x.count <= best ==> BestOf(votes + [x], found, best, bestEmoji)
  {
    MaxCountSnoc(votes, x);
    FindKeyAppend(votes, x, CountOf, x.count);
    if found {
      FindKeyAppend(votes, x, CountOf, best);
    }
  }

  /** The index of a qualifying reaction with count `total` and no qualifying one with that count before it. */
  ghost predicate FirstWinner(cfg: HeartBoardConfig, rs: seq<ReactionCount>, total: nat, emoji: string, i: int) {
    && 0 <= i < |rs|
    && Qualifies(cfg, rs[i]) && rs[i].count == total && rs[i].emoji == emoji
    && forall j :: 0 <= j < i && Qualifies(cfg, rs[j]) ==> rs[j].count < total
  }

  /**
   * Single mode, stated without the filters: no emoji is reported exactly
   * when no configured reaction reaches the threshold; otherwise the total
   * bounds every qualifying count and the one reported emoji is the first
   * qualifying reaction with that count.
   */
  ghost predicate SingleModeSpec(cfg: HeartBoardConfig, rs: seq<ReactionCount>, t: TallyResult) {
    && (t.reactedEmojis == [] <==> forall i :: 0 <= i < |rs| ==> !Qualifies(cfg, rs[i]))
    && (t.reactedEmojis != [] ==>
          && (forall i :: 0 <= i < |rs| && Qualifies(cfg, rs[i]) ==> rs[i].count <= t.total)
          && exists i :: FirstWinner(cfg, rs, t.total, t.reactedEmojis[0], i))
  }

  lemma {:induction false} SingleModeWinner(cfg: HeartBoardConfig, rs: seq<ReactionCount>)
    requires !cfg.cumulative
    ensures SingleModeSpec(cfg, rs, Tally(cfg, rs))
    decreases |rs|
  {
    if |rs| > 0 {
      var prefix := rs[..|rs| - 1];
      var x := rs[|rs| - 1];
      assert rs == prefix + [x];
      SingleModeWinner(cfg, prefix);
      if Qualifies(cfg, x) {
        SingleModeWinnerExtend(cfg, prefix, x);
      } else {
        VotesSnoc(cfg, prefix, x);
        TallyFromVotes(cfg, prefix);
        TallyFromVotes(cfg, rs);
        assert Votes(cfg, prefix) + [] == Votes(cfg, prefix);
        SingleModeSpecSkip(cfg, prefix, x, Tally(cfg, prefix));
      }
    }
  }

  /** A reaction that does not qualify changes neither the tally nor its characterisation. */
  lemma SingleModeSpecSkip(cfg: HeartBoardConfig, prefix: seq<ReactionCount>, x: ReactionCount, t: TallyResult)
    requires !Qualifies(cfg, x) && SingleModeSpec(cfg, prefix, t)
    ensures SingleModeSpec(cfg, prefix + [x], t)
  {
    var rs := prefix + [x];
    assert forall i :: 0 <= i < |prefix| ==> rs[i] == prefix[i];
    if t.reactedEmojis != [] {
      var i :| FirstWinner(cfg, prefix, t.total, t.reactedEmojis[0], i);
      assert FirstWinner(cfg, rs, t.total, t.reactedEmojis[0], i);
    }
  }

  /** The induction step of `SingleModeWinner` when the new reaction qualifies. */
  lemma SingleModeWinnerExtend(cfg: HeartBoardConfig, prefix: seq<ReactionCount>, x: ReactionCount)
    requires !cfg.cumulative && Qualifies(cfg, x)
    requires SingleModeSpec(cfg, prefix, Tally(cfg, prefix))
    ensures SingleModeSpec(cfg, prefix + [x], Tally(cfg, prefix + [x]))
  {
    var t0 := Tally(cfg, prefix);
    TallySnocQualifies(cfg, prefix, x);
    if t0.reactedEmojis == [] || t0.total < x.count {
      SpecNewWinner(cfg, prefix, x, t0);
    } else {
      SpecKeepWinner(cfg, prefix, x, t0);
    }
  }

  /** A qualifying reaction takes over the tally exactly when it beats the current total. */
  lemma TallySnocQualifies(cfg: HeartBoardConfig, prefix: seq<ReactionCount>, x: ReactionCount)
    requires !cfg.cumulative && Qualifies(cfg, x)
    ensures var t0 := Tally(cfg, prefix);
      Tally(cfg, prefix + [x]) == if t0.reactedEmojis == [] || t0.total < x.count then TallyResult(x.count, [x.emoji]) else t0
  {
    var votes0 := Votes(cfg, prefix);
    VotesSnoc(cfg, prefix, x);
    TallyFromVotes(cfg, prefix);
    TallyFromVotes(cfg, prefix + [x]);
    MaxCountSnoc(votes0, x);
    var votes := votes0 + [x];
    if |votes0| == 0 {
      FindKeyAppend(votes0, x, CountOf, x.count);
    } else if MaxCount(votes0) >= x.count {
      FindKeyAppend(votes0, x, CountOf, MaxCount(votes0));
      var i := FindKey(votes0, CountOf, MaxCount(votes0));
      assert votes[i] == votes0[i];
    } else {
      FindKeyAppend(votes0, x, CountOf, x.count);
    }
  }

  /** A qualifying reaction above every earlier qualifying count becomes the first winner. */
  lemma SpecNewWinner(cfg: HeartBoardConfig, prefix: seq<ReactionCount>, x: ReactionCount, t0: TallyResult)
    requires Qualifies(cfg, x) && SingleModeSpec(cfg, prefix, t0)
    requires t0.reactedEmojis == [] || t0.total < x.count
    ensures SingleModeSpec(cfg, prefix + [x], TallyResult(x.count, [x.emoji]))
  {
    var rs := prefix + [x];
    assert forall i :: 0 <= i < |prefix| ==> rs[i] == prefix[i];
    assert rs[|prefix|] == x && Qualifies(cfg, rs[|prefix|]);
    assert forall i :: 0 <= i < |rs| && Qualifies(cfg, rs[i]) ==> rs[i].count <= x.count;
    var t := TallyResult(x.count, [x.emoji]);
    assert FirstWinner(cfg, rs, t.total, t.reactedEmojis[0], |prefix|);
  }

  /** A qualifying reaction not above the current total leaves the winner in place. */
  lemma SpecKeepWinner(cfg: HeartBoardConfig, prefix: seq<ReactionCount>, x: ReactionCount, t0: TallyResult)
    requires Qualifies(cfg, x) && SingleModeSpec(cfg, prefix, t0)
    requires t0.reactedEmojis != [] && x.count <= t0.total
    ensures SingleModeSpec(cfg, prefix + [x], t0)
  {
    var rs := prefix + [x];
    assert forall i :: 0 <= i < |prefix| ==> rs[i] == prefix[i];
    var i :| FirstWinner(cfg, prefix, t0.total, t0.reactedEmojis[0], i);
    assert FirstWinner(cfg, rs, t0.total, t0.reactedEmojis[0], i);
  }

  /**
   * The tally as the handler computes it, one pass over the reaction cache
   * with running accumulators; it agrees with `Tally` on every input.
   */
  method TallyReactions(cfg: HeartBoardConfig, rs: seq<ReactionCount>) returns (total: nat, reactedEmojis: seq<string>)
    ensures TallyResult(total, reactedEmojis) == Tally(cfg, rs)
  {
    if cfg.cumulative {
      total, reactedEmojis := SumReactions(cfg, rs);
    } else {
      total, reactedEmojis := LargestReaction(cfg, rs);
    }
  }

  /** Cumulative mode: add up every configured reaction (lines 201-205). */
  method SumReactions(cfg: HeartBoardConfig, rs: seq<ReactionCount>) returns (total: nat, reactedEmojis: seq<string>)
    requires cfg.cumulative
    ensures TallyResult(total, reactedEmojis) == Tally(cfg, rs)
  {
    total, reactedEmojis := 0, [];
    var i := 0;
    while i < |rs|
      invariant 0 <= i <= |rs|
      invariant total == SumCounts(Relevant(cfg.emojis, rs[..i]))
      invariant reactedEmojis == EmojisOf(Relevant(cfg.emojis, rs[..i]))
    {
      assert rs[..i + 1] == rs[..i] + [rs[i]];
      RelevantSnoc(cfg.emojis, rs[..i], rs[i]);
      var before := Relevant(cfg.emojis, rs[..i]);
      if rs[i].emoji in cfg.emojis {
        assert (before + [rs[i]])[..|before|] == before;
        total := total + rs[i].count;
        reactedEmojis := reactedEmojis + [rs[i].emoji];
      } else {
        assert before + [] == before;
      }
      i := i + 1;
    }
    assert rs[..|rs|] == rs;
  }

  /** Single mode: the first reaction with the largest qualifying count (lines 206-215). */
  method LargestReaction(cfg: HeartBoardConfig, rs: seq<ReactionCount>) returns (total: nat, reactedEmojis: seq<string>)
    requires !cfg.cumulative
    ensures TallyResult(total, reactedEmojis) == Tally(cfg, rs)
  {
    var found, best, bestEmoji := false, 0, "";
    ghost var votes: seq<ReactionCount> := [];
    var i := 0;
    while i < |rs|
      invariant 0 <= i <= |rs|
      invariant votes == Votes(cfg, rs[..i])
      invariant BestOf(votes, found, best, bestEmoji)
    {
      var x := rs[i];
      assert rs[..i + 1] == rs[..i] + [x];
      VotesSnoc(cfg, rs[..i], x);
      if Qualifies(cfg, x) {
        BestOfSnoc(votes, x, found, best, bestEmoji);
        if !found || x.count > best {
          found, best, bestEmoji := true, x.count, x.emoji;
        }
        votes := votes + [x];
      } else {
        assert votes + [] == votes;
      }
      i := i + 1;
    }
    assert rs[..|rs|] == rs;
    TallyFromVotes(cfg, rs);
    if found {
      total, reactedEmojis := best, [bestEmoji];
    } else {
      total, reactedEmojis := 0, [];
    }
  }
}

=== FILE: text.dfy ===
/**
 * The JavaScript string operations the bot relies on, over `seq<char>`:
 * `trim`, `split` on one character, `join`, `includes`, `startsWith`,
 * `replace` with a string pattern (first occurrence only) and number-to-text.
 */
module Text {

  /** ECMAScript WhiteSpace and LineTerminator code points, which `trim` strips. */
  predicate IsWhitespace(c: char) {
    || c == '\t' || c == '\n' || c == '\r' || c == ' '
    || c == '\U{000B}' || c == '\U{000C}' || c == '\U{00A0}' || c == '\U{1680}'
    || ('\U{2000}' <= c <= '\U{200A}')
    || c == '\U{2028}' || c == '\U{2029}' || c == '\U{202F}' || c == '\U{205F}'
    || c == '\U{3000}' || c == '\U{FEFF}'
  }

  /** No whitespace at either end. */
  predicate Trimmed(s: string) {
    |s| == 0 || (!IsWhitespace(s[0]) && !IsWhitespace(s[|s| - 1]))
  }

  function TrimStart(s: string): (r: string)
    ensures |r| <= |s| && r == s[|s| - |r|..]
    ensures forall i :: 0 <= i < |s| - |r| ==> IsWhitespace(s[i])
    ensures |r| == 0 || !IsWhitespace(r[0])
  {
    if |s| > 0 && IsWhitespace(s[0]) then TrimStart(s[1..]) else s
  }

  function TrimEnd(s: string): (r: string)
    ensures |r| <= |s| && r == s[..|r|]
    ensures forall i :: |r| <= i < |s| ==> IsWhitespace(s[i])
    ensures |r| == 0 || !IsWhitespace(r[|r| - 1])
  {
    if |s| > 0 && IsWhitespace(s[|s| - 1]) then TrimEnd(s[..|s| - 1]) else s
  }

  /** `s.trim()`: the longest slice of `s` with no whitespace at either end. */
  function Trim(s: string): (r: string)
    ensures Trimmed(r)
    ensures |r| <= |s|
    ensures Trimmed(s) ==> r == s
    ensures exists a, b :: OuterWhitespace(s, a, b) && r == s[a..b]
  {
    var front := TrimStart(s);
    var r := TrimEnd(front);
    SliceBetweenWhitespace(s, front, r);
    r
  }

  /**
   * A whitespace-free-ended prefix `r` of a suffix `front` of `s`, where
   * only whitespace was cut off on both sides, is a slice of `s` with
   * whitespace outside it.
   */
  lemma SliceBetweenWhitespace(s: string, front: string, r: string)
    requires |front| <= |s| && front == s[|s| - |front|..]
    requires forall i :: 0 <= i < |s| - |front| ==> IsWhitespace(s[i])
    requires |front| == 0 || !IsWhitespace(front[0])
    requires |r| <= |front| && r == front[..|r|]
    requires forall i :: |r| <= i < |front| ==> IsWhitespace(front[i])
    requires |r| == 0 || !IsWhitespace(r[|r| - 1])
    ensures Trimmed(r)
    ensures var a := |s| - |front|;
      OuterWhitespace(s, a, a + |r|) && r == s[a..a + |r|]
  {
    var a := |s| - |front|;
    assert |r| > 0 ==> r[0] == front[0];
    forall k | a + |r| <= k < |s| ensures IsWhitespace(s[k]) {
      assert s[k] == front[k - a];
    }
  }

  /** Everything of `s` before index `a` and from index `b` on is whitespace. */
  predicate OuterWhitespace(s: string, a: int, b: int) {
    && 0 <= a <= b <= |s|
    && (forall k :: 0 <= k < a ==> IsWhitespace(s[k]))
    && (forall k :: b <= k < |s| ==> IsWhitespace(s[k]))
  }

  /** `xs.join(sep)`. */
  function Join(xs: seq<string>, sep: string): string {
    if |xs| == 0 then ""
    else if |xs| == 1 then xs[0]
    else xs[0] + sep + Join(xs[1..], sep)
  }

  /** Joining is associative with respect to appending one more element. */
  lemma {:induction false} JoinSnoc(xs: seq<string>, x: string, sep: string)
    requires |xs| >= 1
    ensures Join(xs + [x], sep) == Join(xs, sep) + sep + x
  {
    if |xs| == 1 {
      assert (xs + [x])[1..] == [x];
    } else {
      assert (xs + [x])[1..] == xs[1..] + [x];
      JoinSnoc(xs[1..], x, sep);
    }
  }

  /** The first index of `c` in `s`, or -1. */
  function IndexOfChar(s: string, c: char): (r: int)
    ensures -1 <= r < |s|
    ensures r == -1 <==> c !in s
    ensures 0 <= r ==> s[r] == c && c !in s[..r]
  {
    if |s| == 0 then -1
    else if s[0] == c then 0
    else
      var j := IndexOfChar(s[1..], c);
      assert s[1..][..j + 1] == s[1..j + 2];
      if j == -1 then -1 else j + 1
  }

  /** `s.split(c)` for a one-character separator: never empty, no part holds `c`. */
  function Split(s: string, c: char): (r: seq<string>)
    ensures |r| >= 1
    ensures forall i :: 0 <= i < |r| ==> c !in r[i]
    decreases |s|
  {
    var k := IndexOfChar(s, c);
    if k == -1 then [s] else [s[..k]] + Split(s[k + 1..], c)
  }

  /** Splitting a string whose first part is `a` yields `a` and the split of the rest. */
  lemma SplitCons(a: string, b: string, c: char)
    requires c !in a
    ensures Split(a + [c] + b, c) == [a] + Split(b, c)
  {
    var s := a + [c] + b;
    assert s[|a|] == c;
    assert s[..|a|] == a;
    assert s[|a| + 1..] == b;
  }

  /** Joining the parts of a split gives back the string. */
  lemma {:induction false} JoinSplit(s: string, c: char)
    ensures Join(Split(s, c), [c]) == s
    decreases |s|
  {
    var k := IndexOfChar(s, c);
    if k == -1 {
      assert Split(s, c) == [s];
    } else {
      var head, tail := s[..k], s[k + 1..];
      var rest := Split(tail, c);
      assert Split(s, c) == [head] + rest;
      JoinSplit(tail, c);
      JoinCons(head, rest, [c]);
      SliceAround(s, k);
      assert Join(Split(s, c), [c]) == head + [c] + tail;
    }
  }

  /** A string is the text before index `k`, the character at `k`, and the text after it. */
  lemma SliceAround(s: string, k: int)
    requires 0 <= k < |s|
    ensures s == s[..k] + [s[k]] + s[k + 1..]
  {
  }

  /** Joining a list with a head element puts the separator after the head. */
  lemma JoinCons(a: string, rest: seq<string>, sep: string)
    requires |rest| >= 1
    ensures Join([a] + rest, sep) == a + sep + Join(rest, sep)
  {
    assert ([a] + rest)[1..] == rest;
  }

  /**
   * Splitting a join gives back the parts, provided there is at least one
   * part and none contains the separator.
   */
  lemma {:induction false} SplitJoin(xs: seq<string>, c: char)
    requires |xs| >= 1
    requires forall i :: 0 <= i < |xs| ==> c !in xs[i]
    ensures Split(Join(xs, [c]), c) == xs
  {
    if |xs| > 1 {
      SplitJoin(xs[1..], c);
      SplitCons(xs[0], Join(xs[1..], [c]), c);
      assert xs == [xs[0]] + xs[1..];
    }
  }

  /** Two adjacent separators produce an empty part. */
  lemma {:induction false} AdjacentSeparatorsGiveEmptyPart(s: string, c: char, i: nat)
    requires i + 1 < |s| && s[i] == c && s[i + 1] == c
    ensures "" in Split(s, c)
    decreases |s|
  {
    var k := IndexOfChar(s, c);
    assert c in s;
    if k == i {
      SeparatorAfterFirstGivesEmptyPart(s, c);
    } else {
      assert k < i;
      var rest := s[k + 1..];
      assert rest[i - k - 1] == c && rest[i - k] == c;
      AdjacentSeparatorsGiveEmptyPart(rest, c, i - k - 1);
      assert Split(s, c) == [s[..k]] + Split(rest, c);
    }
  }

  /** A separator right after the first one makes the second part empty. */
  lemma SeparatorAfterFirstGivesEmptyPart(s: string, c: char)
    requires 0 <= IndexOfChar(s, c) && IndexOfChar(s, c) + 1 < |s| && s[IndexOfChar(s, c) + 1] == c
    ensures |Split(s, c)| >= 2 && Split(s, c)[1] == ""
  {
    var rest := s[IndexOfChar(s, c) + 1..];
    assert rest[0] == c;
    assert IndexOfChar(rest, c) == 0;
  }

  /** The parts of a split are as many as the separators plus one. */
  function CountChar(s: string, c: char): nat {
    if |s| == 0 then 0 else (if s[0] == c then 1 else 0) + CountChar(s[1..], c)
  }

  lemma CountCharConcat(a: string, b: string, c: char)
    ensures CountChar(a + b, c) == CountChar(a, c) + CountChar(b, c)
  {
    if |a| > 0 {
      assert (a + b)[1..] == a[1..] + b;
    } else {
      assert a + b == b;
    }
  }

  lemma CountCharAbsent(s: string, c: char)
    requires c !in s
    ensures CountChar(s, c) == 0
  {
    if |s| > 0 {
      assert c !in s[1..];
    }
  }

  lemma {:induction false} SplitLength(s: string, c: char)
    ensures |Split(s, c)| == CountChar(s, c) + 1
    decreases |s|
  {
    var k := IndexOfChar(s, c);
    if k == -1 {
      CountCharAbsent(s, c);
    } else {
      SplitLength(s[k + 1..], c);
      assert s == s[..k] + ([c] + s[k + 1..]);
      CountCharConcat(s[..k], [c] + s[k + 1..], c);
      CountCharConcat([c], s[k + 1..], c);
      CountCharAbsent(s[..k], c);
    }
  }

  /** `s.startsWith(p)`. */
  predicate StartsWith(s: string, p: string) {
    |p| <= |s| && s[..|p|] == p
  }

  /** `pat` occurs in `s` at index `i`. */
  predicate OccursAt(s: string, pat: string, i: int) {
    0 <= i && i + |pat| <= |s| && s[i..i + |pat|] == pat
  }

  function FindFrom(s: string, pat: string, k: nat): (r: int)
    ensures r == -1 <==> forall i :: k <= i ==> !OccursAt(s, pat, i)
    ensures r != -1 ==> k <= r && OccursAt(s, pat, r) && forall i :: k <= i < r ==> !OccursAt(s, pat, i)
    decreases |s| - k
  {
    if k + |pat| > |s| then -1
    else if OccursAt(s, pat, k) then k
    else FindFrom(s, pat, k + 1)
  }

  /** `s.indexOf(pat)`: the first occurrence of `pat`, or -1. */
  function IndexOf(s: string, pat: string): (r: int)
    ensures r == -1 <==> forall i :: 0 <= i ==> !OccursAt(s, pat, i)
    ensures r != -1 ==> OccursAt(s, pat, r) && forall i :: 0 <= i < r ==> !OccursAt(s, pat, i)
  {
    FindFrom(s, pat, 0)
  }

  /** `s.includes(pat)`. */
  predicate Includes(s: string, pat: string) {
    IndexOf(s, pat) != -1
  }

  /**
   * ECMAScript GetSubstitution for a string pattern (no capture groups):
   * `$$` is a dollar sign, `$&` the match, `` $` `` the text before it, `$'`
   * the text after it; any other `$` stays literal.
   */
  function Expand(rep: string, matched: string, before: string, after: string): string
    decreases |rep|
  {
    if |rep| == 0 then ""
    else if rep[0] == '$' && |rep| >= 2 && rep[1] == '$' then "$" + Expand(rep[2..], matched, before, after)
    else if rep[0] == '$' && |rep| >= 2 && rep[1] == '&' then matched + Expand(rep[2..], matched, before, after)
    else if rep[0] == '$' && |rep| >= 2 && rep[1] == '`' then before + Expand(rep[2..], matched, before, after)
    else if rep[0] == '$' && |rep| >= 2 && rep[1] == '\'' then after + Expand(rep[2..], matched, before, after)
    else [rep[0]] + Expand(rep[1..], matched, before, after)
  }

  /** A replacement with no dollar sign is inserted verbatim. */
  lemma {:induction false} ExpandLiteral(rep: string, matched: string, before: string, after: string)
    requires '$' !in rep
    ensures Expand(rep, matched, before, after) == rep
    decreases |rep|
  {
    if |rep| > 0 {
      assert '$' !in rep[1..];
      ExpandLiteral(rep[1..], matched, before, after);
    }
  }

  /** The first occurrence of `pat` cut out and `rep` put in its place, character for character. */
  function SpliceFirst(s: string, pat: string, rep: string): string {
    var i := IndexOf(s, pat);
    if i == -1 then s else s[..i] + rep + s[i + |pat|..]
  }

  /** A literal replacement at the first occurrence is the splice. */
  lemma LiteralSplice(s: string, pat: string, rep: string, i: int)
    requires i == IndexOf(s, pat) && i != -1
    ensures '$' !in rep ==> s[..i] + Expand(rep, pat, s[..i], s[i + |pat|..]) + s[i + |pat|..] == SpliceFirst(s, pat, rep)
  {
    if '$' !in rep {
      assert OccursAt(s, pat, i);
      ExpandLiteral(rep, pat, s[..i], s[i + |pat|..]);
      assert SpliceFirst(s, pat, rep) == s[..i] + rep + s[i + |pat|..];
    }
  }

  /**
   * `s.replace(pat, rep)`: only the first occurrence of `pat` is replaced,
   * with the `$` patterns of `rep` expanded; a replacement without `$` is
   * put in verbatim.
   */
  function ReplaceFirst(s: string, pat: string, rep: string): (r: string)
    ensures IndexOf(s, pat) == -1 ==> r == s
    ensures '$' !in rep ==> r == SpliceFirst(s, pat, rep)
  {
    var i := IndexOf(s, pat);
    if i == -1 then s
    else
      assert OccursAt(s, pat, i);
      var before, after := s[..i], s[i + |pat|..];
      var inserted := Expand(rep, pat, before, after);
      LiteralSplice(s, pat, rep, i);
      before + inserted + after
  }

  /**
   * Only the first occurrence is substituted: any occurrence of a pattern
   * `other` that does not overlap the replaced text survives a literal
   * replacement, shifted when it lies after it.
   */
  lemma OccurrenceSurvives(s: string, pat: string, rep: string, other: string, j: int)
    requires '$' !in rep
    requires OccursAt(s, other, j)
    requires IndexOf(s, pat) != -1
    requires IndexOf(s, pat) + |pat| <= j || j + |other| <= IndexOf(s, pat)
    ensures OccursAt(ReplaceFirst(s, pat, rep), other,
                     if IndexOf(s, pat) + |pat| <= j then j - |pat| + |rep| else j)
  {
    if IndexOf(s, pat) + |pat| <= j {
      OccurrenceAfterSurvives(s, pat, rep, other, j);
    } else {
      OccurrenceBeforeSurvives(s, pat, rep, other, j);
    }
  }

  lemma OccurrenceAfterSurvives(s: string, pat: string, rep: string, other: string, j: int)
    requires '$' !in rep
    requires OccursAt(s, other, j)
    requires IndexOf(s, pat) != -1 && IndexOf(s, pat) + |pat| <= j
    ensures OccursAt(ReplaceFirst(s, pat, rep), other, j - |pat| + |rep|)
  {
    var i := IndexOf(s, pat);
    var head := s[..i] + rep;
    var tail := s[i + |pat|..];
    ExpandLiteral(rep, pat, s[..i], tail);
    var m := j - i - |pat|;
    assert tail[m..m + |other|] == other by {
      assert tail[m..m + |other|] == s[j..j + |other|];
    }
    SliceOfConcat(head, tail, m, |other|);
    var r := ReplaceFirst(s, pat, rep);
    assert r == head + tail;
    assert |head| + m == j - |pat| + |rep|;
  }

  lemma OccurrenceBeforeSurvives(s: string, pat: string, rep: string, other: string, j: int)
    requires OccursAt(s, other, j)
    requires IndexOf(s, pat) != -1 && j + |other| <= IndexOf(s, pat)
    ensures OccursAt(ReplaceFirst(s, pat, rep), other, j)
  {
    var i := IndexOf(s, pat);
    var r := ReplaceFirst(s, pat, rep);
    assert r[..i] == s[..i];
    assert r[j..j + |other|] == r[..i][j..j + |other|];
  }

  /** A pattern that starts with `c` cannot occur in a string without `c`. */
  lemma AbsentLeadChar(s: string, pat: string)
    requires |pat| > 0 && pat[0] !in s
    ensures !Includes(s, pat)
  {
  }

  lemma SliceOfConcat(x: string, t: string, m: nat, n: nat)
    requires m + n <= |t|
    ensures (x + t)[|x| + m..|x| + m + n] == t[m..m + n]
  {
  }

  /** A digit `0`..`9` as a character. */
  function DigitChar(d: nat): (c: char)
    requires d < 10
    ensures '0' <= c <= '9'
  {
    (('0' as int) + d) as char
  }

  predicate IsDigits(s: string) {
    forall i :: 0 <= i < |s| ==> '0' <= s[i] <= '9'
  }

  /** The decimal value of a string of digits. */
  function DigitsValue(s: string): nat
    requires IsDigits(s)
  {
    if |s| == 0 then 0 else DigitsValue(s[..|s| - 1]) * 10 + ((s[|s| - 1] as int) - ('0' as int))
  }

  /** `${n}` for a non-negative integer: decimal digits, no leading zero. */
  function NatToString(n: nat): (r: string)
    ensures |r| >= 1 && IsDigits(r)
    ensures r[0] == '0' ==> n == 0 && r == "0"
  {
    if n < 10 then [DigitChar(n)] else NatToString(n / 10) + [DigitChar(n % 10)]
  }

  /** The decimal text of a number reads back as that number. */
  lemma {:induction false} NatToStringRoundTrip(n: nat)
    ensures DigitsValue(NatToString(n)) == n
  {
    var r := NatToString(n);
    if n >= 10 {
      NatToStringRoundTrip(n / 10);
      assert r[..|r| - 1] == NatToString(n / 10);
    }
  }

  /** `${i}` for any integer. */
  function IntToString(i: int): (r: string)
    ensures i >= 0 ==> |r| >= 1 && IsDigits(r) && DigitsValue(r) == i && (r[0] == '0' ==> r == "0")
    ensures i < 0 ==> |r| >= 2 && r[0] == '-' && IsDigits(r[1..]) && DigitsValue(r[1..]) == -i && r[1] != '0'
  {
    NatToStringRoundTrip(if i < 0 then -i else i);
    if i < 0 then
      var r := "-" + NatToString(-i);
      assert r[1..] == NatToString(-i);
      r
    else NatToString(i)
  }
}

=== FILE: types.dfy ===
/** The stored records of the bot: per-server configuration and per-server data. */
module Types {

  /** Discord identifiers are decimal strings. */
  type Snowflake = string

  /** One heartboard registry entry: source message to mirror message. */
  datatype HeartBoardMessage = HeartBoardMessage(channelID: Snowflake, messageID: Snowflake, embedMessageID: Snowflake)

  datatype HeartBoardConfig = HeartBoardConfig(
    enabled: bool,
    cumulative: bool,
    denyAuthor: bool,
    thresholdNumber: int,
    emojis: seq<string>,
    outputChannel: Snowflake)

  datatype VoicePingConfig = VoicePingConfig(
    enabled: bool,
    voicePingMessage: string,
    inputChannels: seq<Snowflake>,
    outputChannel: Snowflake)

  /** A server's configuration (the config document's element). */
  datatype ServerConfig = ServerConfig(
    id: Snowflake,
    aiEnabled: bool,
    serverResponses: seq<string>,
    heartBoard: HeartBoardConfig,
    voicePing: VoicePingConfig)

  datatype ConfigData = ConfigData(servers: seq<ServerConfig>)

  /** A server's volatile data (the data document's element). */
  datatype ServerData = ServerData(
    id: Snowflake,
    heartBoardMessages: seq<HeartBoardMessage>,
    chatbotCoreMemory: string,
    chatbotLongtermMemory: seq<string>,
    chatbotShortTermMessages: seq<string>)

  datatype SaveData = SaveData(servers: seq<ServerData>, grokCoreMemory: string)

  /** Keys by which the stored sequences are searched. */
  function MessageIdOf(m: HeartBoardMessage): Snowflake { m.messageID }
  function DataIdOf(d: ServerData): Snowflake { d.id }
  function ConfigIdOf(c: ServerConfig): Snowflake { c.id }

  /** U+2764 HEAVY BLACK HEART followed by U+FE0F VARIATION SELECTOR-16. */
  const HeartEmoji: string := "\U{2764}\U{FE0F}"

  const DefaultHeartboardConfig: HeartBoardConfig :=
    HeartBoardConfig(false, false, false, 3, [HeartEmoji], "")

  const DefaultVoicepingConfig: VoicePingConfig :=
    VoicePingConfig(false, "Welcome to the voice channel, {user}", [], "")

  /**
   * The default heartboard is off, single-emoji, lets authors react, needs 3
   * reactions, has no output channel, and counts only the emoji-presentation
   * heart: the bare U+2764 heart is a different string.
   */
  lemma DefaultHeartboard()
    ensures !DefaultHeartboardConfig.enabled && !DefaultHeartboardConfig.cumulative
    ensures !DefaultHeartboardConfig.denyAuthor && DefaultHeartboardConfig.thresholdNumber == 3
    ensures DefaultHeartboardConfig.outputChannel == ""
    ensures DefaultHeartboardConfig.emojis == [HeartEmoji] && |HeartEmoji| == 2
    ensures "\U{2764}" !in DefaultHeartboardConfig.emojis
  {
  }

  /** The default voice ping is off, greets `{user}`, listens nowhere and has no output channel. */
  lemma DefaultVoiceping()
    ensures !DefaultVoicepingConfig.enabled
    ensures DefaultVoicepingConfig.voicePingMessage == "Welcome to the voice channel, {user}"
    ensures DefaultVoicepingConfig.inputChannels == [] && DefaultVoicepingConfig.outputChannel == ""
  {
  }
}

=== FILE: wrappers.dfy ===
/** Optional values: `undefined`/`null` on the TypeScript side. */
module Wrappers {

  datatype Option<+T> = None | Some(value: T) {

    /** The value, or `default` when absent (the `??` operator). */
    function GetOr(default: T): T {
      match this
      case Some(v) => v
      case None => default
    }
  }
}
